=== FILE: README.md ===
# SetDateTaken in Dafny

SetDateTaken is a Windows command-line tool. It is run as
`SetDateTaken pathname year month day`. It walks the folder tree below `pathname`
and writes a copy of every image it accepts into a `Corrected` sub-folder next to the
image. Each copy's EXIF "date taken" (DateTimeOriginal and DateTimeDigitized) is set to
the command-line day. The time of day is kept from the image's own tag, or else taken
from the file's modification time.

This project models that core as pure Dafny functions over immutable values:

- `CStrings` covers the CString and C run-time primitives the program relies on:
  `Tokenize`, `Find`, `Right`, `TrimRight`, `MakeLower`, `_tstol`, and the zero padding
  of `%Y`/`%m`/….
- `Helper` covers `CHelper.h`: `_tsplitpath`, the `GetDrive`/`GetDirectory`/
  `GetFileName`/`GetExtension`/`GetFolder`/`GetDataName` family built on it, and
  `CorrectedCommandLine`.
- `Date` covers `CDate`:
  - the six fields and the validity COleDateTime gives them (years 100..9999, the
    Gregorian calendar, 24-hour time);
  - the `YYYY:MM:DD HH:MM:SS` text form (`GetDate`) and its parser `SetDateTaken`;
  - `SetDateAndTime`;
  - the month-name lookup.
- `Extension` covers `CExtension`: the extension-to-MIME-type table and
  `SetFileExtension`. The globally selected encoder survives from file to file. This
  module also holds RecursePath's allow-list and `GetCorrectedFolder`.
- `Resolve` covers `GetCurrentDateTaken` and how RecursePath picks a file's time of day
  and re-dates it.
- `Walker` covers `RecursePath` and `Save`:
  - the file system is a tree of `Entry` values;
  - what the program would write is a list of `Event`s;
  - the folders that exist are a set threaded through the walk.
- `Program` covers `_tmain`: exit code 3 for a wrong argument count, 4 for a missing
  folder, 5 for an invalid date, and 0 after the walk.

The file system's answers are parameters of the model: whether a folder exists, what a
wildcard pattern matches, whether a folder can be created, a file's tags, and its
modification time.

Main results:

- Parsing the text form restores the date, and formatting a parse of well-shaped text
  restores the text.
- Tokenizing is dropping the empty fields of a split.
- `_tmain`'s four outcomes are characterised exactly.
- Every event of a walk keeps the program's promises:
  - no copy is written outside the `Corrected` folder beside its source, under another
    name, or over the source itself;
  - no copy has a day other than the command-line day, or an invalid time;
  - no sub-folder whose name ends in `Corrected` is entered (the folder the walk starts
    from is not tested, and is walked even when it is itself a `Corrected` folder);
  - only allow-listed files are touched;
  - a walk creates no folders except output folders that did not exist.
- An example walk of C:\pics\ holds a photo a.jpg, a text file and the `Corrected`
  folder of an earlier run. It produces exactly one copy, of the photo, re-dated to the
  command-line day. It creates no folder, because `C:\pics\Corrected` is already there.
  The command line `SetDateTaken C:\pics\ 2023 1 10` exits 0 and performs exactly that
  walk.

Behaviour of the code that is easy to miss:

- Output folders are recognised by a case-sensitive suffix test on the whole folder path
  (`Right(9) == "Corrected"`), not by equality of the folder name. `NotCorrected` is
  skipped too, and `corrected` is entered (`Walker.SkipExamples`).
- The allow-list is a substring test on `".jpg;.jpeg;.png;.gif;.bmp;.tif;.tiff"`. A file
  without an extension passes it, and so do `.jp` and `.jpe`
  (`Extension.CandidatesOffTheList`).
- A file without an extension, or with the extension `.jp`, has no MIME type in the
  table. It keeps the previous file's encoder, while its MIME type reads empty
  (`Extension.StaleEncoderExample`). A `.jpe` file is listed in the table and gets the
  JPEG encoder.
- When neither tag parses to a valid date and the modification time cannot be read, the
  time of day is not necessarily 00:00:00. It is whatever the parse of the digitized tag
  left in the fields. That is 00:00:00 whenever the tag did not split into six tokens.
  Otherwise it is the hour, minute and second written in the tag
  (`Resolve.LeftoverTimeExample`).

## Model

| member | source | states |
|---|---|---|
| CStrings.Lower | SetDateTaken/SetDateTaken.cpp:308 | MakeLower keeps the length, leaves no upper-case letter, and changes exactly the upper-case letters |
| CStrings.LowerKeeps | SetDateTaken/SetDateTaken.cpp:308 | text without upper-case letters is unchanged by MakeLower |
| CStrings.FindFrom | SetDateTaken/SetDateTaken.cpp:311 | Find returns the first index where the needle occurs, and -1 exactly when it occurs nowhere |
| CStrings.ContainsIsSubstring | SetDateTaken/SetDateTaken.cpp:311 | `-1 != Find(...)` holds exactly when the needle is a substring |
| CStrings.ForeignCharNotFound | SetDateTaken/SetDateTaken.cpp:311 | a needle containing a character the haystack lacks is never found |
| CStrings.Right | SetDateTaken/SetDateTaken.cpp:286 | Right(n) is a suffix of length min(n, length) |
| CStrings.RightIsSuffixTest | SetDateTaken/SetDateTaken.cpp:286 | comparing Right(n) with a text of length n is the suffix test |
| CStrings.TrimRight | SetDateTaken/SetDateTaken.cpp:252 | TrimRight leaves a prefix that does not end in the character, and removes only that character |
| CStrings.TrimRightOne | SetDateTaken/SetDateTaken.cpp:284-285 | a path not ending in '\\' is unchanged, and one trailing '\\' is removed |
| CStrings.TokenizeIsNonEmptyFields | SetDateTaken/SetDateTaken.cpp:73-84 | the Tokenize loop from any start yields the non-empty fields of the rest of the text, split at the delimiters |
| CStrings.Tokens | SetDateTaken/SetDateTaken.cpp:68-84 | the tokens are the non-empty fields, and none holds a delimiter |
| CStrings.FieldsCons | SetDateTaken/SetDateTaken.cpp:73-84 | a run without delimiters followed by a delimiter splits off as the first field |
| CStrings.PadValue | SetDateTaken/SetDateTaken.h:92 | a number below 10^width, zero-padded to that width, reads back as the number |
| CStrings.PadOfDigits | SetDateTaken/SetDateTaken.h:92 | a digit string is the zero-padded form of its value at its own width |
| CStrings.AtoLLeadingDigits | SetDateTaken/SetDateTaken.cpp:101 | _tstol reads the leading digits and ignores whatever follows them |
| CStrings.AtoLNonNumeric | SetDateTaken/SetDateTaken.cpp:101 | text that starts with neither blank, sign nor digit converts to 0 |
| CStrings.AtoLPad | SetDateTaken/SetDateTaken.cpp:101 | _tstol of a zero-padded number is the number |
| CStrings.AtoLLower | SetDateTaken/SetDateTaken.cpp:75-76 | _tstol reads the same number from a token and from its lower-cased form, so the MakeLower applied to each token changes no field |
| Date.DaysInMonth | SetDateTaken/SetDateTaken.h:198-204 | months have 28..31 days, and 29 exactly for February of a leap year |
| Date.UnsetIsInvalid | SetDateTaken/SetDateTaken.h:287-294 | the fields of a new CDate, and those after a failed parse, are not a date |
| Date.CalendarExamples | SetDateTaken/SetDateTaken.h:198-204 | 29 February is valid in 2020 and 2000, invalid in 2021 and 1900, and 31 September is invalid |
| Date.Format | SetDateTaken/SetDateTaken.h:92 | the formatted text has the shape YYYY:MM:DD HH:MM:SS |
| Date.SetDateTaken | SetDateTaken/SetDateTaken.cpp:57-144 | with six non-empty fields, their _tstol values become the six fields in order (lower-casing them first changes nothing); with any other count, the fields stay reset |
| Date.FieldsOfSix | SetDateTaken/SetDateTaken.cpp:68-92 | six digit runs joined by the separators of the text form are exactly six tokens |
| Date.ParseFormat | SetDateTaken/SetDateTaken.cpp:57-144 | parsing the text form of any printable value restores all six fields |
| Date.FormatParse | SetDateTaken/SetDateTaken.h:82-97 | formatting the parse of well-shaped text gives the text back |
| Date.StampIsFormat | SetDateTaken/SetDateTaken.h:92 | every well-shaped text is the text form of the numbers written in it |
| Date.GetDate | SetDateTaken/SetDateTaken.h:82-97 | for valid fields, the text is well shaped and parses back to them; otherwise it is the cached text of the last success |
| Date.SetDateAndTime | SetDateTaken/SetDateTaken.h:223-237 | a valid value replaces all six fields, an invalid one changes nothing, so a valid date never becomes invalid |
| Date.Left | SetDateTaken/SetDateTaken.h:274 | Left(n) is a prefix of length min(n, length) |
| Date.GetMonthOfTheYear | SetDateTaken/SetDateTaken.h:269-284 | the result is 1..12 when the lower-cased first three letters are a month key, and that key's month; it is 0 exactly when they are no key |
| Date.OrdinalOfDistinct | SetDateTaken/SetDateTaken.h:297-320 | in a table without repeats, each key is found at its own position |
| Date.MonthKeysLookUp | SetDateTaken/SetDateTaken.h:297-320 | the k-th key of the constructor's table looks up to month k |
| Date.MonthLookupIgnoresCase | SetDateTaken/SetDateTaken.h:274 | names that agree in their lower-cased first three letters get the same month |
| Date.SeptemberExample | SetDateTaken/SetDateTaken.h:269-284 | "September" is month 9 |
| Date.ShortNameExample | SetDateTaken/SetDateTaken.h:269-284 | a two-letter name is no month |
| Resolve.EmptyTextIsInvalid | SetDateTaken/SetDateTaken.cpp:86-92 | empty text never parses to a valid date |
| Resolve.GetCurrentDateTaken | SetDateTaken/SetDateTaken.cpp:148-184 | the original tag wins when valid, then the digitized tag, else the result is empty; non-empty text parses to the valid date left in the fields |
| Resolve.ResolveFileDate | SetDateTaken/SetDateTaken.cpp:321-347 | the day is the command-line day; the time comes from the chosen tag, else the modification time, else the leftover parse |
| Resolve.ResolvedValidity | SetDateTaken/SetDateTaken.cpp:352-365 | with a valid command-line day, a file's date is valid exactly when its time is, and always when a tag was chosen |
| Resolve.ModificationTimeIsValid | SetDateTaken/SetDateTaken.cpp:336-341 | a real modification time always gives a valid date |
| Resolve.ResolveDependsOnParses | SetDateTaken/SetDateTaken.cpp:169-181 | tags that parse alike resolve alike |
| Resolve.OriginalTagExample | SetDateTaken/SetDateTaken.cpp:321-347 | original tag 2021:01:01 08:30:15 and day 2022-06-01 give 2022:06:01 08:30:15 |
| Resolve.ModificationTimeExample | SetDateTaken/SetDateTaken.cpp:328-347 | no tags and modification time 14:05:09 give 2022:06:01 14:05:09 |
| Resolve.LeftoverTimeExample | SetDateTaken/SetDateTaken.cpp:328-365 | an invalid digitized tag's hour and minute survive without a modification time and make the date invalid |
| Extension.LookupFrom | SetDateTaken/SetDateTaken.cpp:426-428 | the lookup finds a listed pair exactly when the extension is listed |
| Extension.MimeTypeOf | SetDateTaken/SetDateTaken.h:422-452 | an extension has a MIME type exactly when the table lists it, and then a listed one |
| Extension.TableKeysDistinct | SetDateTaken/SetDateTaken.h:422-435 | no extension is listed twice |
| Extension.MimeTypeOfTable | SetDateTaken/SetDateTaken.h:422-452 | every listed extension maps to the MIME type beside it, one of the five image types |
| Extension.SetFileExtension | SetDateTaken/SetDateTaken.cpp:422-476 | the extension is recorded; a known one selects its MIME type and encoder; an unknown one empties the MIME type and keeps the old encoder |
| Extension.SetFileExtensionIdempotent | SetDateTaken/SetDateTaken.cpp:422-476 | setting the same extension twice is setting it once |
| Extension.KnownExtensionForgetsPast | SetDateTaken/SetDateTaken.cpp:426-470 | after a known extension, the state does not depend on what was set before |
| Extension.StaleEncoderExample | SetDateTaken/SetDateTaken.cpp:472-475 | ".jp" after ".jpg" keeps the JPEG encoder with an empty MIME type |
| Extension.AllowedJoin | SetDateTaken/SetDateTaken.cpp:241 | the allow-list text is the seven extensions joined by ';' |
| Extension.AllowedAreCandidatesWithMimeTypes | SetDateTaken/SetDateTaken.cpp:241 | each listed extension passes the filter and has a MIME type |
| Extension.CandidatesOffTheList | SetDateTaken/SetDateTaken.cpp:311 | "", ".jp" and ".jpe" pass the substring filter, and the first two have no MIME type |
| Extension.NonCandidates | SetDateTaken/SetDateTaken.cpp:311 | ".txt" fails the filter, and so do the table's ".dib" and ".rle" |
| Extension.CorrectedFolderLength | SetDateTaken/SetDateTaken.h:491-496 | the length is that of the folder name, so Right of it is the whole name |
| Extension.CorrectedFolderLengthIsNine | SetDateTaken/SetDateTaken.h:484-496 | the output folder name has nine characters |
| Helper.SplitPath | SetDateTaken/CHelper.h:80-140 | the four pieces put back together give the path: drive "X:", a directory ending in a separator, a name without separators, and an extension from the last '.' |
| Helper.GetExtension | SetDateTaken/CHelper.h:96-108 | the extension is empty, or starts at the last '.' after the folder |
| Helper.GetFolder | SetDateTaken/CHelper.h:144-149 | the folder is the path up to and including its last separator |
| Helper.GetDataName | SetDateTaken/CHelper.h:153-158 | the data name is the rest of the path after the folder, and holds no separator |
| Helper.FolderAndDataName | SetDateTaken/CHelper.h:144-158 | folder plus data name is the path |
| Helper.WildcardIffDataName | SetDateTaken/SetDateTaken.cpp:248-251 | a path differs from its folder exactly when it has a last component |
| Helper.TrailingSeparatorIsFolder | SetDateTaken/SetDateTaken.cpp:248-265 | a path ending in a separator is its own folder and has no pattern |
| Helper.LastComponentIsPattern | SetDateTaken/SetDateTaken.cpp:248-265 | any other path, unless it is a bare drive, has a pattern |
| Helper.SplitAfterFolder | SetDateTaken/CHelper.h:144-158 | a folder followed by a name splits back into exactly those two |
| Helper.ExtensionAfterFolder | SetDateTaken/CHelper.h:96-108 | the extension of a folder plus a name is the name's part from its last '.' |
| Helper.FindQuote | SetDateTaken/CHelper.h:39 | Find of the quote is -1 exactly when there is none, and otherwise the first quote |
| Helper.CorrectedCommandLine | SetDateTaken/CHelper.h:14-76 | with two arguments and a quote in the second, the path becomes the text before the quote plus '\\', followed by the blank-separated words after it; anything else is unchanged |
| Helper.RepairAtQuote | SetDateTaken/CHelper.h:36-72 | the repair at the first quote, in terms of that quote's position |
| Helper.SpacedWords | SetDateTaken/CHelper.h:53-67 | " y m d" tokenizes to exactly the three words |
| Helper.QuotedPathRepair | SetDateTaken/CHelper.h:36-72 | the one argument `folder" y m d` repairs to the five arguments program, `folder\`, y, m, d |
| Walker.Save | SetDateTaken/SetDateTaken.cpp:189-232 | the event is a written or a failed save of the source itself; Save fails exactly when the output folder neither exists nor can be created; otherwise the folder exists afterwards and the copy goes there under the source's own name; the folder is created exactly when it did not exist and can be created |
| Walker.SaveTarget | SetDateTaken/SetDateTaken.cpp:208-222 | the copy of `folder\name` is `folder\Corrected\name` |
| Walker.SaveInFolder | SetDateTaken/SetDateTaken.cpp:208-222 | when the output folder exists or can be created, the copy is written there under the same name; an existing folder is used as it is, and only a missing one is created |
| Walker.SaveGrows | SetDateTaken/SetDateTaken.cpp:208-216 | Save creates no folder but its output folder, and that one only when it did not exist |
| Walker.ProcessFile | SetDateTaken/SetDateTaken.cpp:305-411 | a file whose lower-cased extension fails the filter is ignored; any other selects its extension and yields one event about that very file: an invalid-date notice exactly when its resolved date is invalid, else an attempt to save it into its own output folder, which when written carries text that parses to that date and the selected encoder |
| Walker.SaveWithDate | SetDateTaken/SetDateTaken.cpp:367-407 | a valid date yields one event, a written or a failed save of that very file into its output folder; a written copy's text parses back to the date; the extension state is kept |
| Walker.ProcessFileOk | SetDateTaken/SetDateTaken.cpp:305-411 | every event of a file keeps the promises of EventOk |
| Walker.CorrectedTestIsNameTest | SetDateTaken/SetDateTaken.cpp:284-289 | the suffix test on a sub-folder's path only looks at the folder's own name |
| Walker.SkipExamples | SetDateTaken/SetDateTaken.cpp:286 | "Corrected" and "NotCorrected" end in "Corrected"; "corrected" does not |
| Walker.RecurseSub | SetDateTaken/SetDateTaken.cpp:291-303 | recursing into a sub-folder walks it in the parent's mode with the parent's pattern |
| Walker.DotsSkipped | SetDateTaken/SetDateTaken.cpp:274-278 | the entries "." and ".." are passed over with no event and no change, whatever the pattern |
| Walker.VisitFolder | SetDateTaken/SetDateTaken.cpp:280-303 | a sub-folder ending in "Corrected" adds nothing; any other is entered and walked |
| Walker.RecursePathOk | SetDateTaken/SetDateTaken.cpp:236-417 | every event of a walk keeps the promises: no sub-folder whose name ends in "Corrected" is entered (the starting folder is not tested), only allow-listed files are touched, and copies carry the command-line day and a valid time and go into the Corrected folder beside their source, never over the source itself; a failed save names an output folder that neither existed nor could be created |
| Walker.RecursePathGrows | SetDateTaken/SetDateTaken.cpp:236-417 | a walk forgets no folder it created, and creates only output folders that did not exist |
| Walker.NameExtension | SetDateTaken/SetDateTaken.cpp:307-308 | the extension of a file in a folder is the part of its name from the last '.' |
| Walker.ExamplePhoto | SetDateTaken/SetDateTaken.cpp:305-407 | a.jpg tagged 2019:05:04 09:15:00 is copied to the existing C:\pics\Corrected as a.jpg, dated 2023:01:10 09:15:00, with the JPEG encoder, and no folder is created |
| Walker.ExampleText | SetDateTaken/SetDateTaken.cpp:305-311 | notes.txt is ignored entirely |
| Walker.ExampleSkip | SetDateTaken/SetDateTaken.cpp:284-289 | an earlier Corrected folder is passed over |
| Walker.ExampleWalk | SetDateTaken/SetDateTaken.cpp:236-417 | walking C:\pics\ writes exactly the one re-dated copy of the photo and creates no folder, since C:\pics\Corrected already exists |
| Program.LaunchOf | SetDateTaken/SetDateTaken.cpp:498-666 | exit 3 exactly for a wrong argument count, 4 exactly for a missing folder other than ".", 5 exactly for an invalid date, and otherwise a walk of the path ("." widened to ".\\*.*") with the command-line date at midnight |
| Program.Run | SetDateTaken/SetDateTaken.cpp:481-696 | the exit code is 0, 3, 4 or 5, the one LaunchOf decides, and only exit 0 walks |
| Program.DateLaunch | SetDateTaken/SetDateTaken.cpp:595-677 | four parameters, a path other than "." whose folder exists, and words that read as a valid date start the walk of that path on that date |
| Program.ExampleLaunch | SetDateTaken/SetDateTaken.cpp:595-677 | with C:\pics\ on the disk, `SetDateTaken C:\pics\ 2023 1 10` starts the walk of C:\pics\ on 2023-01-10 |
| Program.ExampleRun | SetDateTaken/SetDateTaken.cpp:595-694 | `SetDateTaken C:\pics\ 2023 1 10` over the example tree exits 0 and its walk writes exactly the one re-dated copy of the photo |
| Program.RunOk | SetDateTaken/SetDateTaken.cpp:668-694 | every event of a run keeps the walk's promises for the command-line date |
| Program.CurrentFolderWalk | SetDateTaken/SetDateTaken.cpp:601-608 | "." is walked as the current folder with everything matched |
| Program.QuotedCommandLine | SetDateTaken/SetDateTaken.cpp:498-666 | the typical quoting mistake still starts the walk of the intended folder with the intended date |
| Program.LeapDayExample | SetDateTaken/SetDateTaken.cpp:627-666 | 29 February starts a walk in 2020 and ends with exit 5 in 2021 |

## Left out

- GDI+ is not modelled: loading an image, reading properties as bytes, writing the two
  date properties, encoding and saving. A file's tags are given as text (`Tags`), and a
  save is an event.
- GetStringProperty is not modelled, for the same reason. Its outcome, empty text for a
  missing or non-ASCII property, is the input `Tags`.
- Walker.Save: does not model the GDI+ status of `Image::Save`. The save is reported as
  written whenever the folder is there, because the result is ignored by RecursePath
  anyway.
- Extension.SetFileExtension: does not model a failed enumeration of the GDI+ encoders
  (`GetImageEncodersSize` returning size 0). In that case the MIME type is set but the
  class ID stays as it was. The encoder is abstracted by the MIME type it belongs to.
- COleDateTime's conversion of each `int` field to a 16-bit WORD is not modelled. Values
  that wrap into range (for example a month of 65537) are judged invalid here.
- `_tstol` overflow beyond 32 bits is not modelled; integers are unbounded.
- The `_MAX_DRIVE`/`_MAX_DIR`/`_MAX_FNAME`/`_MAX_EXT` buffer limits of `_tsplitpath`
  are not modelled.
- The NUL characters that end C strings are not modelled.
- `_tfullpath` is not modelled. CFileFind's path of an entry is the folder, '\\' and
  the entry name. Entry names are non-empty and contain no separator or ':'.
- The wildcard matching of CFileFind for patterns other than `*.*` is a parameter
  (`matches`).
- Folder existence (`PathFileExists`) is a parameter. The same answer is used for the
  command-line folder and for output folders; folders the walk itself created count as
  existing. Whether `CreatePath` (SHCreateDirectoryEx) succeeds is a parameter too.
- The modification time is a parameter. It is `None` when CFile::GetStatus fails, and
  otherwise hour, minute and second as CTime gives them.
- Exit codes 1 and 2 (GetModuleHandle and AfxWinInit failing) are not modelled; they
  depend on the process environment only.
- Console output is not modelled. This covers the usage text, the echo of the
  parameters, and per-file progress other than the invalid-date notice and the saves,
  which are events.
- COM and GDI+ start-up and shut-down (AfxOleInit, CoInitialize, InitGdiplus,
  TerminateGdiplus) are not modelled.
- `CDate::SetDate` is not modelled: it relies on COleDateTime::ParseDateTime's
  locale-dependent parser and is never called by the program.
- The property getters' side effect of storing the validity flag (`Okay`) is not
  modelled; the flag is always recomputed from the six fields.
- `GetFileName`, `GetDirectory` and `GetDrive` are modelled by `Helper.SplitPath` and
  carry no contracts of their own.

=== FILE: cstrings.dfy ===
/** The CString and C run-time primitives the program relies on (Tokenize, Find, Right,
    TrimRight, MakeLower, _tstol and the zero-padded %0Nd of strftime), as pure functions
    over `seq<char>`.  Only the "C" locale is modelled: case mapping and white space are ASCII. */
module CStrings {

  // ---------------------------------------------------------------------------
  // Characters
  // ---------------------------------------------------------------------------

  predicate IsDigit(c: char) {
    '0' <= c <= '9'
  }

  /** isspace in the "C" locale: space, tab, line feed, vertical tab, form feed, carriage return. */
  predicate IsSpace(c: char) {
    c == ' ' || 9 <= c as int <= 13
  }

  predicate IsUpper(c: char) {
    'A' <= c <= 'Z'
  }

  function LowerChar(c: char): char {
    if IsUpper(c) then (c as int + 32) as char else c
  }

  /** CString::MakeLower in the "C" locale. */
  function Lower(s: string): (r: string)
    ensures |r| == |s|
    ensures forall i :: 0 <= i < |r| ==> !IsUpper(r[i])
    ensures forall i :: 0 <= i < |r| ==> (r[i] == s[i] <==> !IsUpper(s[i]))
  {
    seq(|s|, i requires 0 <= i < |s| => LowerChar(s[i]))
  }

  /** Text without upper-case letters is its own lower-case form. */
  lemma LowerKeeps(s: string)
    requires forall i :: 0 <= i < |s| ==> !IsUpper(s[i])
    ensures Lower(s) == s
  {
  }

  // ---------------------------------------------------------------------------
  // Searching: CString::Find, CString::Right, CString::TrimRight
  // ---------------------------------------------------------------------------

  /** `needle` occurs in `hay` starting at index `i`. */
  predicate OccursAt(hay: string, needle: string, i: int) {
    0 <= i && i + |needle| <= |hay| && hay[i..i + |needle|] == needle
  }

  /** CString::Find(needle, from): the first index at or after `from` where `needle`
      occurs, or -1.  As with strstr, an empty needle occurs at `from`. */
  function FindFrom(hay: string, needle: string, from: nat): (r: int)
    requires from <= |hay|
    ensures r == -1 || (from <= r && OccursAt(hay, needle, r))
    ensures r == -1 ==> forall k :: from <= k <= |hay| ==> !OccursAt(hay, needle, k)
    ensures r != -1 ==> forall k :: from <= k < r ==> !OccursAt(hay, needle, k)
    decreases |hay| - from
  {
    if OccursAt(hay, needle, from) then from
    else if from == |hay| then -1
    else FindFrom(hay, needle, from + 1)
  }

  function Find(hay: string, needle: string): int {
    FindFrom(hay, needle, 0)
  }

  /** `-1 != hay.Find(needle)`: needle is a substring of hay. */
  predicate Contains(hay: string, needle: string) {
    Find(hay, needle) != -1
  }

  /** Contains is exactly the substring relation. */
  lemma ContainsIsSubstring(hay: string, needle: string)
    ensures Contains(hay, needle) <==> exists k :: OccursAt(hay, needle, k)
  {
    if exists k :: OccursAt(hay, needle, k) {
      var k :| OccursAt(hay, needle, k);
      assert 0 <= k <= |hay|;
    }
  }

  /** A needle holding a character the haystack lacks is never found. */
  lemma ForeignCharNotFound(hay: string, needle: string, c: char)
    requires c in needle && c !in hay
    ensures !Contains(hay, needle)
  {
    ContainsIsSubstring(hay, needle);
  }

  /** The needle occurs at i when its characters match there one by one. */
  lemma OccursAtByChars(hay: string, needle: string, i: nat)
    requires i + |needle| <= |hay|
    requires forall j :: 0 <= j < |needle| ==> hay[i + j] == needle[j]
    ensures OccursAt(hay, needle, i) && Contains(hay, needle)
  {
    assert hay[i..i + |needle|] == needle;
    assert OccursAt(hay, needle, i);
    ContainsIsSubstring(hay, needle);
  }

  predicate EndsWith(s: string, suffix: string) {
    |suffix| <= |s| && s[|s| - |suffix|..] == suffix
  }

  /** CString::Right(n): the last n characters, or the whole string when it is shorter. */
  function Right(s: string, n: nat): (r: string)
    ensures |r| == if n < |s| then n else |s|
    ensures EndsWith(s, r)
  {
    if n >= |s| then s else s[|s| - n..]
  }

  /** Comparing `Right(s, |t|)` with `t` is a case-sensitive suffix test. */
  lemma RightIsSuffixTest(s: string, t: string)
    ensures Right(s, |t|) == t <==> EndsWith(s, t)
  {
  }

  /** CString::TrimRight(c): removes every trailing `c`. */
  function TrimRight(s: string, c: char): (r: string)
    ensures r <= s
    ensures r == [] || r[|r| - 1] != c
    ensures forall k :: |r| <= k < |s| ==> s[k] == c
    decreases |s|
  {
    if s != [] && s[|s| - 1] == c then TrimRight(s[..|s| - 1], c) else s
  }

  /** A string not ending in c is left alone, and so is one c appended to it removed. */
  lemma TrimRightOne(s: string, c: char)
    requires s == [] || s[|s| - 1] != c
    ensures TrimRight(s, c) == s
    ensures TrimRight(s + [c], c) == s
  {
    assert (s + [c])[..|s|] == s;
  }

  // ---------------------------------------------------------------------------
  // CString::Tokenize
  // ---------------------------------------------------------------------------

  /** No character of `s` is one of `delims`. */
  predicate NoneIn(s: string, delims: string) {
    forall k :: 0 <= k < |s| ==> s[k] !in delims
  }

  /** The first index at or after `i` that is not a delimiter, or |s|. */
  function SkipDelims(s: string, delims: string, i: nat): (j: nat)
    requires i <= |s|
    ensures i <= j <= |s|
    ensures forall k :: i <= k < j ==> s[k] in delims
    ensures j < |s| ==> s[j] !in delims
    decreases |s| - i
  {
    if i < |s| && s[i] in delims then SkipDelims(s, delims, i + 1) else i
  }

  /** The first index at or after `i` that is a delimiter, or |s|. */
  function SkipToken(s: string, delims: string, i: nat): (j: nat)
    requires i <= |s|
    ensures i <= j <= |s|
    ensures forall k :: i <= k < j ==> s[k] !in delims
    ensures j < |s| ==> s[j] in delims
    decreases |s| - i
  {
    if i < |s| && s[i] !in delims then SkipToken(s, delims, i + 1) else i
  }

  /** The tokens the program's `do { t = s.Tokenize(delims, nStart); if (t.IsEmpty()) break; ... }`
      loops collect, starting at index `start`: each call skips a run of delimiters, returns
      the run of non-delimiters after it and moves one past the delimiter that ends it. */
  function Tokenize(s: string, delims: string, start: nat): seq<string>
    requires start <= |s|
    decreases |s| - start
  {
    var i := SkipDelims(s, delims, start);
    if i == |s| then []
    else
      var j := SkipToken(s, delims, i);
      [s[i..j]] + (if j == |s| then [] else Tokenize(s, delims, j + 1))
  }

  /** Reference splitter: the fields of `s` between delimiters, empty ones included
      ("a::b" has the fields "a", "" and "b"). */
  function Fields(s: string, delims: string): seq<string>
    decreases |s|
  {
    var j := SkipToken(s, delims, 0);
    if j == |s| then [s] else [s[..j]] + Fields(s[j + 1..], delims)
  }

  /** The non-empty elements of `xs`, in order. */
  function NonEmpty(xs: seq<string>): (ys: seq<string>)
    ensures |ys| <= |xs|
    ensures forall i :: 0 <= i < |ys| ==> ys[i] != []
  {
    if xs == [] then []
    else (if xs[0] == [] then [] else [xs[0]]) + NonEmpty(xs[1..])
  }

  /** Every element NonEmpty keeps comes from its argument. */
  lemma {:induction false} NonEmptyFrom(xs: seq<string>)
    ensures forall i :: 0 <= i < |NonEmpty(xs)| ==> NonEmpty(xs)[i] in xs
  {
    if xs != [] {
      NonEmptyFrom(xs[1..]);
      var head := if xs[0] == [] then [] else [xs[0]];
      assert NonEmpty(xs) == head + NonEmpty(xs[1..]);
      forall i | 0 <= i < |NonEmpty(xs)|
        ensures NonEmpty(xs)[i] in xs
      {
        if i >= |head| {
          assert NonEmpty(xs)[i] == NonEmpty(xs[1..])[i - |head|];
          assert NonEmpty(xs)[i] in xs[1..];
        }
      }
    }
  }

  /** Dropping empty elements keeps a sequence whose elements are all non-empty. */
  lemma {:induction false} NonEmptyKeepsAll(xs: seq<string>)
    requires forall i :: 0 <= i < |xs| ==> xs[i] != []
    ensures NonEmpty(xs) == xs
  {
    if xs != [] {
      NonEmptyKeepsAll(xs[1..]);
    }
  }

  /** A string of digits contains none of a set of delimiters that holds no digit. */
  lemma DigitsHaveNoDelims(t: string, delims: string)
    requires AllDigits(t)
    requires forall j :: 0 <= j < |delims| ==> !IsDigit(delims[j])
    ensures NoneIn(t, delims)
  {
    forall k | 0 <= k < |t|
      ensures t[k] !in delims
    {
      assert IsDigit(t[k]);
    }
  }

  lemma {:induction false} FieldsHaveNoDelims(s: string, delims: string)
    ensures forall i :: 0 <= i < |Fields(s, delims)| ==> NoneIn(Fields(s, delims)[i], delims)
    decreases |s|
  {
    var j := SkipToken(s, delims, 0);
    if j < |s| {
      FieldsHaveNoDelims(s[j + 1..], delims);
    }
  }

  /** Two uses of SkipToken that start at the same character find the same delimiter. */
  lemma SkipTokenShift(s: string, delims: string, k: nat)
    requires k <= |s|
    ensures SkipToken(s[k..], delims, 0) + k == SkipToken(s, delims, k)
  {
    var a := SkipToken(s[k..], delims, 0);
    var b := SkipToken(s, delims, k);
    assert forall i :: 0 <= i < |s| - k ==> s[k..][i] == s[k + i];
  }

  /** At a delimiter, Tokenize behaves as if it had started one character later. */
  lemma TokenizeAtDelim(s: string, delims: string, k: nat)
    requires k < |s| && s[k] in delims
    ensures Tokenize(s, delims, k) == Tokenize(s, delims, k + 1)
  {
    assert SkipDelims(s, delims, k) == SkipDelims(s, delims, k + 1);
  }

  /** A leading delimiter contributes an empty first field. */
  lemma FieldsAtDelim(s: string, delims: string, k: nat)
    requires k < |s| && s[k] in delims
    ensures Fields(s[k..], delims) == [[]] + Fields(s[k + 1..], delims)
  {
    var rest := s[k..];
    assert SkipToken(rest, delims, 0) == 0;
    assert rest[1..] == s[k + 1..];
  }

  /** At a non-delimiter, Tokenize returns the run up to the next delimiter (at j, or the
      end) first. */
  lemma TokenizeAtToken(s: string, delims: string, k: nat, j: nat)
    requires k < |s| && s[k] !in delims && j == SkipToken(s, delims, k)
    ensures j < |s| ==> Tokenize(s, delims, k) == [s[k..j]] + Tokenize(s, delims, j + 1)
    ensures j == |s| ==> Tokenize(s, delims, k) == [s[k..j]]
  {
    assert SkipDelims(s, delims, k) == k;
  }

  /** At a non-delimiter followed later by a delimiter at j, the first field is s[k..j]. */
  lemma FieldsAtToken(s: string, delims: string, k: nat, j: nat)
    requires k < |s| && s[k] !in delims
    requires j == SkipToken(s, delims, k) && j < |s|
    ensures Fields(s[k..], delims) == [s[k..j]] + Fields(s[j + 1..], delims)
  {
    var rest := s[k..];
    SkipTokenShift(s, delims, k);
    FieldsSplitAt(rest, delims, j - k);
    SuffixSlices(s, k, j - k);
    assert Fields(rest[j - k + 1..], delims) == Fields(s[j + 1..], delims);
    ConsEqual(Fields(rest, delims), rest[..j - k], s[k..j], Fields(rest[j - k + 1..], delims), Fields(s[j + 1..], delims));
  }

  /** A sequence written as a first element and a rest keeps that form when both parts
      are replaced by equal ones. */
  lemma ConsEqual(a: seq<string>, x: string, y: string, restX: seq<string>, restY: seq<string>)
    requires a == [x] + restX && x == y && restX == restY
    ensures a == [y] + restY
  {
  }

  /** Slicing a suffix is slicing the string, shifted by where the suffix starts. */
  lemma SuffixSlices(s: string, k: nat, i: nat)
    requires k + i < |s|
    ensures s[k..][..i] == s[k..k + i] && s[k..][i + 1..] == s[k + i + 1..]
  {
  }

  /** At a non-delimiter with no delimiter after it, the rest is one field. */
  lemma FieldsAtLastToken(s: string, delims: string, k: nat)
    requires k < |s| && s[k] !in delims
    requires SkipToken(s, delims, k) == |s|
    ensures Fields(s[k..], delims) == [s[k..]]
  {
    SkipTokenShift(s, delims, k);
  }

  /** Unfolds Fields when its first delimiter is at index i. */
  lemma FieldsSplitAt(s: string, delims: string, i: nat)
    requires i < |s| && SkipToken(s, delims, 0) == i
    ensures Fields(s, delims) == [s[..i]] + Fields(s[i + 1..], delims)
  {
  }

  /** NonEmpty distributes over concatenation with a single element. */
  lemma NonEmptyCons(x: string, xs: seq<string>)
    ensures NonEmpty([x] + xs) == (if x == [] then [] else [x]) + NonEmpty(xs)
  {
    assert ([x] + xs)[1..] == xs;
  }

  /** Tokenize from `k` yields exactly the non-empty fields of the rest of the string. */
  lemma {:induction false} TokenizeIsNonEmptyFields(s: string, delims: string, k: nat)
    requires k <= |s|
    ensures Tokenize(s, delims, k) == NonEmpty(Fields(s[k..], delims))
    decreases |s| - k, 2
  {
    if k == |s| {
      assert s[k..] == [];
    } else if s[k] in delims {
      TokenizeIsNonEmptyFieldsAtDelim(s, delims, k);
    } else {
      TokenizeIsNonEmptyFieldsAtToken(s, delims, k);
    }
  }

  /** The delimiter case of TokenizeIsNonEmptyFields. */
  lemma {:induction false} TokenizeIsNonEmptyFieldsAtDelim(s: string, delims: string, k: nat)
    requires k < |s| && s[k] in delims
    ensures Tokenize(s, delims, k) == NonEmpty(Fields(s[k..], delims))
    decreases |s| - k, 0
  {
    TokenizeAtDelim(s, delims, k);
    NonEmptyFieldsAtDelim(s, delims, k);
    TokenizeIsNonEmptyFields(s, delims, k + 1);
  }

  /** The token case of TokenizeIsNonEmptyFields. */
  lemma {:induction false} TokenizeIsNonEmptyFieldsAtToken(s: string, delims: string, k: nat)
    requires k < |s| && s[k] !in delims
    ensures Tokenize(s, delims, k) == NonEmpty(Fields(s[k..], delims))
    decreases |s| - k, 1
  {
    var j := SkipToken(s, delims, k);
    if j < |s| {
      TokenizeIsNonEmptyFieldsBeforeDelim(s, delims, k, j);
    } else {
      TokenizeIsNonEmptyFieldsAtLastToken(s, delims, k);
    }
  }

  /** The token case of TokenizeIsNonEmptyFields when a delimiter at `j` ends the token. */
  lemma {:induction false} TokenizeIsNonEmptyFieldsBeforeDelim(s: string, delims: string, k: nat, j: nat)
    requires k < |s| && s[k] !in delims && j == SkipToken(s, delims, k) && j < |s|
    ensures Tokenize(s, delims, k) == NonEmpty(Fields(s[k..], delims))
    decreases |s| - k, 0
  {
    TokenizeIsNonEmptyFields(s, delims, j + 1);
    TokenAgrees(s, delims, k, j);
  }

  /** If the tokens and the non-empty fields after the delimiter at `j` agree, so do those
      from the token at `k` before it. */
  lemma TokenAgrees(s: string, delims: string, k: nat, j: nat)
    requires k < |s| && s[k] !in delims && j == SkipToken(s, delims, k) && j < |s|
    requires Tokenize(s, delims, j + 1) == NonEmpty(Fields(s[j + 1..], delims))
    ensures Tokenize(s, delims, k) == NonEmpty(Fields(s[k..], delims))
  {
    TokenizeAtToken(s, delims, k, j);
    NonEmptyFieldsAtToken(s, delims, k, j);
    SameFirstSameRest(Tokenize(s, delims, k), NonEmpty(Fields(s[k..], delims)), s[k..j],
                      Tokenize(s, delims, j + 1), NonEmpty(Fields(s[j + 1..], delims)));
  }

  /** Two sequences with the same first element and equal rests are equal. */
  lemma SameFirstSameRest(a: seq<string>, b: seq<string>, x: string, restA: seq<string>, restB: seq<string>)
    requires a == [x] + restA && b == [x] + restB && restA == restB
    ensures a == b
  {
  }

  /** The token case of TokenizeIsNonEmptyFields when the token runs to the end. */
  lemma TokenizeIsNonEmptyFieldsAtLastToken(s: string, delims: string, k: nat)
    requires k < |s| && s[k] !in delims && SkipToken(s, delims, k) == |s|
    ensures Tokenize(s, delims, k) == NonEmpty(Fields(s[k..], delims))
  {
    TokenizeAtToken(s, delims, k, |s|);
    NonEmptyFieldsAtLastToken(s, delims, k);
    assert s[k..|s|] == s[k..];
  }

  /** A delimiter at `k` contributes no non-empty field. */
  lemma NonEmptyFieldsAtDelim(s: string, delims: string, k: nat)
    requires k < |s| && s[k] in delims
    ensures NonEmpty(Fields(s[k..], delims)) == NonEmpty(Fields(s[k + 1..], delims))
  {
    FieldsAtDelim(s, delims, k);
    NonEmptyCons([], Fields(s[k + 1..], delims));
  }

  /** A token from `k` to a delimiter at `j` is the first non-empty field. */
  lemma NonEmptyFieldsAtToken(s: string, delims: string, k: nat, j: nat)
    requires k < |s| && s[k] !in delims
    requires j == SkipToken(s, delims, k) && j < |s|
    ensures NonEmpty(Fields(s[k..], delims)) == [s[k..j]] + NonEmpty(Fields(s[j + 1..], delims))
  {
    FieldsAtToken(s, delims, k, j);
    assert s[k..j] != [] by {
      assert s[k..j][0] == s[k];
    }
    NonEmptyCons(s[k..j], Fields(s[j + 1..], delims));
  }

  /** A token from `k` to the end is the only non-empty field. */
  lemma NonEmptyFieldsAtLastToken(s: string, delims: string, k: nat)
    requires k < |s| && s[k] !in delims
    requires SkipToken(s, delims, k) == |s|
    ensures NonEmpty(Fields(s[k..], delims)) == [s[k..]]
  {
    FieldsAtLastToken(s, delims, k);
    assert s[k..] != [] by {
      assert s[k..][0] == s[k];
    }
    NonEmptyCons(s[k..], []);
  }

  /** All tokens of `s`: the non-empty runs of characters outside `delims`, in order. */
  function Tokens(s: string, delims: string): (tokens: seq<string>)
    ensures tokens == NonEmpty(Fields(s, delims))
    ensures forall i :: 0 <= i < |tokens| ==> tokens[i] != [] && NoneIn(tokens[i], delims)
  {
    TokenizeIsNonEmptyFields(s, delims, 0);
    assert s[0..] == s;
    FieldsHaveNoDelims(s, delims);
    NonEmptyFrom(Fields(s, delims));
    Tokenize(s, delims, 0)
  }

  /** A field followed by a delimiter is split off as the first field. */
  lemma FieldsCons(a: string, c: char, b: string, delims: string)
    requires NoneIn(a, delims) && c in delims
    ensures Fields(a + [c] + b, delims) == [a] + Fields(b, delims)
  {
    var s := a + [c] + b;
    assert forall i :: 0 <= i < |a| ==> s[i] == a[i];
    assert s[|a|] == c;
    assert SkipToken(s, delims, 0) == |a|;
    assert s[..|a|] == a;
    assert s[|a| + 1..] == b;
  }

  /** FieldsCons, element by element. */
  lemma FieldsConsAt(a: string, c: char, b: string, delims: string)
    requires NoneIn(a, delims) && c in delims
    ensures |Fields(a + [c] + b, delims)| == |Fields(b, delims)| + 1
    ensures Fields(a + [c] + b, delims)[0] == a
    ensures forall i :: 0 <= i < |Fields(b, delims)| ==> Fields(a + [c] + b, delims)[i + 1] == Fields(b, delims)[i]
  {
    FieldsCons(a, c, b, delims);
  }

  /** A string without delimiters is a single field. */
  lemma FieldsSingle(a: string, delims: string)
    requires NoneIn(a, delims)
    ensures Fields(a, delims) == [a]
  {
  }

  // ---------------------------------------------------------------------------
  // Decimal digits: %0Nd and _tstol
  // ---------------------------------------------------------------------------

  predicate AllDigits(s: string) {
    forall k :: 0 <= k < |s| ==> IsDigit(s[k])
  }

  function DigitValue(c: char): nat
    requires IsDigit(c)
  {
    c as int - '0' as int
  }

  function DigitChar(v: nat): char
    requires v < 10
  {
    ('0' as int + v) as char
  }

  /** The value of a string of decimal digits. */
  function DigitsValue(s: string): nat
    requires AllDigits(s)
    decreases |s|
  {
    if s == [] then 0 else DigitsValue(s[..|s| - 1]) * 10 + DigitValue(s[|s| - 1])
  }

  function Pow10(n: nat): (p: nat)
    ensures p >= 1
  {
    if n == 0 then 1 else 10 * Pow10(n - 1)
  }

  /** printf's %0<width>d: the low `width` decimal digits of v, zero-padded. */
  function Pad(v: nat, width: nat): (r: string)
    ensures |r| == width
    ensures AllDigits(r)
  {
    if width == 0 then [] else Pad(v / 10, width - 1) + [DigitChar(v % 10)]
  }

  /** Reading back a padded number yields the number. */
  lemma {:induction false} PadValue(v: nat, width: nat)
    requires v < Pow10(width)
    ensures DigitsValue(Pad(v, width)) == v
  {
    if width > 0 {
      DropDigit(v, Pow10(width - 1));
      PadValue(v / 10, width - 1);
      PadValueStep(v, width);
    }
  }

  /** The step of PadValue: the last digit of Pad(v, width) is v's last digit. */
  lemma PadValueStep(v: nat, width: nat)
    requires width > 0
    requires DigitsValue(Pad(v / 10, width - 1)) == v / 10
    ensures DigitsValue(Pad(v, width)) == v
  {
    var s := Pad(v, width);
    var front := Pad(v / 10, width - 1);
    var d := DigitChar(v % 10);
    assert s == front + [d];
    assert s[..width - 1] == front;
    assert DigitValue(d) == v % 10;
  }

  /** Dropping the last decimal digit of a number below 10 * p leaves one below p. */
  lemma DropDigit(v: nat, p: nat)
    requires v < 10 * p
    ensures v / 10 < p && v / 10 * 10 + v % 10 == v
  {
  }

  /** Every digit string is the padded form of its own value. */
  lemma {:induction false} PadOfDigits(s: string)
    requires AllDigits(s)
    ensures DigitsValue(s) < Pow10(|s|)
    ensures Pad(DigitsValue(s), |s|) == s
    decreases |s|
  {
    if s != [] {
      PadOfDigits(s[..|s| - 1]);
      PadOfDigitsStep(s);
    }
  }

  /** The step of PadOfDigits: from all digits but the last to all of them. */
  lemma PadOfDigitsStep(s: string)
    requires AllDigits(s) && s != []
    requires var init := s[..|s| - 1];
      DigitsValue(init) < Pow10(|init|) && Pad(DigitsValue(init), |init|) == init
    ensures DigitsValue(s) < Pow10(|s|)
    ensures Pad(DigitsValue(s), |s|) == s
  {
    var init := s[..|s| - 1];
    var c := s[|s| - 1];
    var a := DigitsValue(init);
    var b := DigitValue(c);
    var v := DigitsValue(s);
    AppendDigit(a, b, Pow10(|init|));
    DigitRoundTrip(c);
    ConcatEqual(Pad(v, |s|), Pad(v / 10, |init|), [DigitChar(v % 10)], init, [c]);
    TakeLast(s);
  }

  /** A digit's character is the digit. */
  lemma DigitRoundTrip(c: char)
    requires IsDigit(c)
    ensures DigitValue(c) < 10 && DigitChar(DigitValue(c)) == c
  {
  }

  /** A non-empty string is its front followed by its last character. */
  lemma TakeLast(s: string)
    requires s != []
    ensures s == s[..|s| - 1] + [s[|s| - 1]]
  {
  }

  /** A concatenation keeps its value when both parts are replaced by equal ones. */
  lemma ConcatEqual(whole: string, x: string, y: string, x': string, y': string)
    requires whole == x + y && x == x' && y == y'
    ensures whole == x' + y'
  {
  }

  /** Appending a digit b to a number a below p: dividing by ten undoes it, the remainder
      is the digit, and the result is below 10 * p. */
  lemma AppendDigit(a: nat, b: nat, p: nat)
    requires b < 10 && a < p
    ensures (a * 10 + b) / 10 == a && (a * 10 + b) % 10 == b
    ensures a * 10 + b < p * 10
  {
  }

  /** The string after the leading white space. */
  function SkipSpaces(s: string): (r: string)
    ensures |r| <= |s| && r == s[|s| - |r|..]
    ensures r == [] || !IsSpace(r[0])
    ensures forall k :: 0 <= k < |s| - |r| ==> IsSpace(s[k])
  {
    if s != [] && IsSpace(s[0]) then SkipSpaces(s[1..]) else s
  }

  /** The longest prefix of decimal digits. */
  function DigitPrefix(s: string): (r: string)
    ensures r <= s
    ensures AllDigits(r)
    ensures |r| == |s| || !IsDigit(s[|r|])
  {
    if s != [] && IsDigit(s[0]) then [s[0]] + DigitPrefix(s[1..]) else []
  }

  /** _tstol: skips white space and an optional sign, then converts the longest run of
      decimal digits; text without leading digits converts to 0. */
  function AtoL(s: string): int {
    var t := SkipSpaces(s);
    if t != [] && t[0] == '-' then 0 - DigitsValue(DigitPrefix(t[1..])) as int
    else if t != [] && t[0] == '+' then DigitsValue(DigitPrefix(t[1..]))
    else DigitsValue(DigitPrefix(t))
  }

  /** _tstol uses the leading integer and ignores whatever follows it. */
  lemma AtoLLeadingDigits(digits: string, rest: string)
    requires digits != [] && AllDigits(digits)
    requires rest == [] || !IsDigit(rest[0])
    ensures AtoL(digits + rest) == DigitsValue(digits)
  {
    var s := digits + rest;
    assert s[0] == digits[0];
    assert SkipSpaces(s) == s;
    var p := DigitPrefix(s);
    assert forall i :: 0 <= i < |digits| ==> s[i] == digits[i];
    if rest != [] {
      assert s[|digits|] == rest[0];
    }
    assert |p| == |digits|;
    assert p == digits;
  }

  /** Text that starts with neither white space, a sign nor a digit converts to 0. */
  lemma AtoLNonNumeric(s: string)
    requires s != [] && !IsSpace(s[0]) && !IsDigit(s[0]) && s[0] != '-' && s[0] != '+'
    ensures AtoL(s) == 0
  {
  }

  /** Lower-casing a non-empty text lower-cases its first character and the rest apart. */
  lemma LowerSplits(s: string)
    requires s != []
    ensures Lower(s)[0] == LowerChar(s[0]) && Lower(s)[1..] == Lower(s[1..])
  {
  }

  /** Lower-casing commutes with skipping the leading white space. */
  lemma {:induction false} SkipSpacesLower(s: string)
    ensures SkipSpaces(Lower(s)) == Lower(SkipSpaces(s))
    decreases |s|
  {
    if s != [] {
      var l := Lower(s);
      LowerSplits(s);
      assert IsSpace(l[0]) <==> IsSpace(s[0]);
      if IsSpace(s[0]) {
        calc {
          SkipSpaces(l);
          SkipSpaces(l[1..]);
          { SkipSpacesLower(s[1..]); }
          Lower(SkipSpaces(s[1..]));
          Lower(SkipSpaces(s));
        }
      } else {
        assert SkipSpaces(l) == l;
      }
    }
  }

  /** Lower-casing leaves the leading digits as they are. */
  lemma {:induction false} DigitPrefixLower(s: string)
    ensures DigitPrefix(Lower(s)) == DigitPrefix(s)
    decreases |s|
  {
    if s != [] {
      LowerSplits(s);
      if IsDigit(s[0]) {
        DigitPrefixLower(s[1..]);
      }
    }
  }

  /** _tstol reads the same number from a text and from its lower-cased form. */
  lemma AtoLLower(s: string)
    ensures AtoL(Lower(s)) == AtoL(s)
  {
    var t := SkipSpaces(s);
    var lt := Lower(t);
    assert SkipSpaces(Lower(s)) == lt by {
      SkipSpacesLower(s);
    }
    if t == [] {
      assert lt == [];
    } else {
      LowerSplits(t);
      if t[0] == '-' || t[0] == '+' {
        assert lt[0] == t[0];
        DigitPrefixLower(t[1..]);
      } else {
        assert lt[0] != '-' && lt[0] != '+';
        DigitPrefixLower(t);
      }
    }
  }

  /** Converting a padded number gives the number back. */
  lemma AtoLPad(v: nat, width: nat)
    requires 1 <= width && v < Pow10(width)
    ensures AtoL(Pad(v, width)) == v
  {
    var t := Pad(v, width);
    PadValue(v, width);
    assert t + [] == t;
    AtoLLeadingDigits(t, []);
  }
}

=== FILE: date.dfy ===
/** CDate: six integer fields, the validity COleDateTime gives them, the EXIF 2.x
    "YYYY:MM:DD HH:MM:SS" text form (GetDate), the parser of that form (SetDateTaken),
    SetDateAndTime and the month-name lookup. */
module Date {
  import opened CStrings

  /** The six fields of a CDate.  They are plain integers: nothing stops a field from
      holding -1 or 75; whether they form a date is decided by `Valid`. */
  datatype DateTime = DateTime(year: int, month: int, day: int, hour: int, minute: int, second: int)

  /** The fields CDate's constructor sets and SetDateTaken resets to. */
  const Unset := DateTime(-1, -1, -1, 0, 0, 0)

  /** The year range COleDateTime represents. */
  const MinYear := 100
  const MaxYear := 9999

  predicate IsLeapYear(y: int) {
    y % 4 == 0 && (y % 100 != 0 || y % 400 == 0)
  }

  /** Gregorian month lengths. */
  function DaysInMonth(y: int, m: int): (n: int)
    requires 1 <= m <= 12
    ensures 28 <= n <= 31
    ensures n == 29 <==> m == 2 && IsLeapYear(y)
  {
    if m == 2 then (if IsLeapYear(y) then 29 else 28)
    else if m == 4 || m == 6 || m == 9 || m == 11 then 30
    else 31
  }

  /** CDate::GetOkay: the six fields form a date-time COleDateTime accepts, which the
      program recomputes from all six fields every time it is read. */
  predicate Valid(d: DateTime) {
    && MinYear <= d.year <= MaxYear
    && 1 <= d.month <= 12
    && 1 <= d.day <= DaysInMonth(d.year, d.month)
    && 0 <= d.hour <= 23
    && 0 <= d.minute <= 59
    && 0 <= d.second <= 59
  }

  /** A freshly constructed CDate, or one after a failed parse, is not a date. */
  lemma UnsetIsInvalid()
    ensures !Valid(Unset)
  {
  }

  /** The calendar facts the usage text relies on. */
  lemma CalendarExamples()
    ensures Valid(DateTime(2020, 2, 29, 0, 0, 0))
    ensures !Valid(DateTime(2021, 2, 29, 0, 0, 0))
    ensures !Valid(DateTime(2022, 9, 31, 0, 0, 0))
    ensures Valid(DateTime(2000, 2, 29, 23, 59, 59)) && !Valid(DateTime(1900, 2, 29, 0, 0, 0))
  {
  }

  // ---------------------------------------------------------------------------
  // The "YYYY:MM:DD HH:MM:SS" form
  // ---------------------------------------------------------------------------

  /** Fields that fit the fixed-width fields of the text form. */
  predicate Printable(d: DateTime) {
    && 0 <= d.year <= 9999
    && 0 <= d.month <= 99 && 0 <= d.day <= 99
    && 0 <= d.hour <= 99 && 0 <= d.minute <= 99 && 0 <= d.second <= 99
  }

  /** Positions of the separators in "YYYY:MM:DD HH:MM:SS". */
  predicate IsSeparatorPosition(k: int) {
    k == 4 || k == 7 || k == 10 || k == 13 || k == 16
  }

  /** Text of the shape "YYYY:MM:DD HH:MM:SS": 19 characters, digits except for the
      colons and the single blank at the separator positions. */
  predicate IsStampShaped(s: string) {
    && |s| == 19
    && s[4] == ':' && s[7] == ':' && s[10] == ' ' && s[13] == ':' && s[16] == ':'
    && forall k :: 0 <= k < 19 && !IsSeparatorPosition(k) ==> IsDigit(s[k])
  }

  /** COleDateTime::Format("%Y:%m:%d %H:%M:%S"): zero-padded to four and two digits. */
  function Format(d: DateTime): (s: string)
    requires Printable(d)
    ensures IsStampShaped(s)
  {
    var s := Pad(d.year, 4) + ":" + Pad(d.month, 2) + ":" + Pad(d.day, 2) + " "
           + Pad(d.hour, 2) + ":" + Pad(d.minute, 2) + ":" + Pad(d.second, 2);
    FormatShape(d, s);
    s
  }

  lemma FormatShape(d: DateTime, s: string)
    requires Printable(d)
    requires s == Pad(d.year, 4) + ":" + Pad(d.month, 2) + ":" + Pad(d.day, 2) + " "
                + Pad(d.hour, 2) + ":" + Pad(d.minute, 2) + ":" + Pad(d.second, 2)
    ensures IsStampShaped(s)
  {
    JoinedShape(Pad(d.year, 4), Pad(d.month, 2), Pad(d.day, 2), Pad(d.hour, 2), Pad(d.minute, 2), Pad(d.second, 2));
  }

  /** Four digits and five pairs of digits, joined by the separators of the text form,
      have its shape. */
  lemma JoinedShape(y: string, mo: string, da: string, h: string, mi: string, se: string)
    requires |y| == 4 && |mo| == 2 && |da| == 2 && |h| == 2 && |mi| == 2 && |se| == 2
    requires AllDigits(y) && AllDigits(mo) && AllDigits(da) && AllDigits(h) && AllDigits(mi) && AllDigits(se)
    ensures IsStampShaped(y + ":" + mo + ":" + da + " " + h + ":" + mi + ":" + se)
  {
    var date := y + ":" + mo + ":" + da;
    var time := h + ":" + mi + ":" + se;
    var s := y + ":" + mo + ":" + da + " " + h + ":" + mi + ":" + se;
    assert s == date + " " + time;
    assert |date| == 10 && |time| == 8;
    forall k | 0 <= k < 10 && !IsSeparatorPosition(k)
      ensures IsDigit(date[k])
    {
      if k < 4 {
        assert date[k] == y[k];
      } else if k < 7 {
        assert date[k] == mo[k - 5];
      } else {
        assert date[k] == da[k - 8];
      }
    }
    forall k | 0 <= k < 8 && k != 2 && k != 5
      ensures IsDigit(time[k])
    {
      if k < 2 {
        assert time[k] == h[k];
      } else if k < 5 {
        assert time[k] == mi[k - 3];
      } else {
        assert time[k] == se[k - 6];
      }
    }
    forall k | 0 <= k < 19 && !IsSeparatorPosition(k)
      ensures IsDigit(s[k])
    {
      if k < 10 {
        assert s[k] == date[k];
      } else {
        assert s[k] == time[k - 11];
      }
    }
  }

  /** The delimiters SetDateTaken tokenizes on. */
  const DateDelims := ": "

  /** CDate::SetDateTaken: resets the fields, splits the text at ':' and ' ' (runs of
      delimiters produce no empty tokens), lower-cases each token and, only when there
      are exactly six tokens, converts them with _tstol into year, month, day, hour,
      minute and second.  No field is range-checked here.  Lower-casing does not change
      what _tstol reads (AtoLLower), so the contract speaks of the tokens as split. */
  function SetDateTaken(text: string): (d: DateTime)
    ensures var f := NonEmpty(Fields(text, DateDelims));
      && (|f| != 6 ==> d == Unset)
      && (|f| == 6 ==> d == DateTime(AtoL(f[0]), AtoL(f[1]), AtoL(f[2]), AtoL(f[3]), AtoL(f[4]), AtoL(f[5])))
    ensures Valid(d) ==> |NonEmpty(Fields(text, DateDelims))| == 6
  {
    var tokens := Tokens(text, DateDelims);
    if |tokens| != 6 then Unset
    else
      AtoLLower(tokens[0]); AtoLLower(tokens[1]); AtoLLower(tokens[2]);
      AtoLLower(tokens[3]); AtoLLower(tokens[4]); AtoLLower(tokens[5]);
      DateTime(AtoL(Lower(tokens[0])), AtoL(Lower(tokens[1])), AtoL(Lower(tokens[2])),
               AtoL(Lower(tokens[3])), AtoL(Lower(tokens[4])), AtoL(Lower(tokens[5])))
  }

  /** The text form, written as the first field, a delimiter and the rest. */
  lemma FormatSplits(d: DateTime)
    requires Printable(d)
    ensures Format(d) == Pad(d.year, 4) + [':'] + (Pad(d.month, 2) + [':'] + (Pad(d.day, 2) + [' ']
                       + (Pad(d.hour, 2) + [':'] + (Pad(d.minute, 2) + [':'] + Pad(d.second, 2)))))
  {
  }

  /** The time part "HH:MM:SS" is three fields. */
  lemma FieldsOfThree(h: string, mi: string, se: string)
    requires NoneIn(h, DateDelims) && NoneIn(mi, DateDelims) && NoneIn(se, DateDelims)
    ensures var f := Fields(h + [':'] + (mi + [':'] + se), DateDelims);
      |f| == 3 && f[0] == h && f[1] == mi && f[2] == se
  {
    var r5 := mi + [':'] + se;
    FieldsSingle(se, DateDelims);
    FieldsConsAt(mi, ':', se, DateDelims);
    var f5 := Fields(r5, DateDelims);
    assert |f5| == 2 && f5[0] == mi && f5[1] == se;
    FieldsConsAt(h, ':', r5, DateDelims);
    var f4 := Fields(h + [':'] + r5, DateDelims);
    assert f4[1] == f5[0] && f4[2] == f5[1];
  }

  /** Six digit strings joined by the delimiters of the text form are its six fields. */
  lemma FieldsOfSix(y: string, mo: string, da: string, h: string, mi: string, se: string)
    requires AllDigits(y) && AllDigits(mo) && AllDigits(da)
    requires AllDigits(h) && AllDigits(mi) && AllDigits(se)
    ensures var f := Fields(y + [':'] + (mo + [':'] + (da + [' '] + (h + [':'] + (mi + [':'] + se)))), DateDelims);
      |f| == 6 && f[0] == y && f[1] == mo && f[2] == da && f[3] == h && f[4] == mi && f[5] == se
  {
    DigitsHaveNoDelims(y, DateDelims);
    DigitsHaveNoDelims(mo, DateDelims);
    DigitsHaveNoDelims(da, DateDelims);
    DigitsHaveNoDelims(h, DateDelims);
    DigitsHaveNoDelims(mi, DateDelims);
    DigitsHaveNoDelims(se, DateDelims);
    var r4 := h + [':'] + (mi + [':'] + se);
    var r3 := da + [' '] + r4;
    var r2 := mo + [':'] + r3;
    FieldsOfThree(h, mi, se);
    var f4 := Fields(r4, DateDelims);
    FieldsConsAt(da, ' ', r4, DateDelims);
    var f3 := Fields(r3, DateDelims);
    assert f3[1] == f4[0] && f3[2] == f4[1] && f3[3] == f4[2];
    FieldsConsAt(mo, ':', r3, DateDelims);
    var f2 := Fields(r2, DateDelims);
    assert f2[1] == f3[0] && f2[2] == f3[1] && f2[3] == f3[2] && f2[4] == f3[3];
    FieldsConsAt(y, ':', r2, DateDelims);
    var f := Fields(y + [':'] + r2, DateDelims);
    assert f[1] == f2[0] && f[2] == f2[1] && f[3] == f2[2] && f[4] == f2[3] && f[5] == f2[4];
  }

  /** The fields of a formatted value are its six padded numbers. */
  lemma FormatFields(d: DateTime)
    requires Printable(d)
    ensures var f := NonEmpty(Fields(Format(d), DateDelims));
      && |f| == 6 && f[0] == Pad(d.year, 4) && f[1] == Pad(d.month, 2) && f[2] == Pad(d.day, 2)
      && f[3] == Pad(d.hour, 2) && f[4] == Pad(d.minute, 2) && f[5] == Pad(d.second, 2)
  {
    FormatSplits(d);
    FieldsOfSix(Pad(d.year, 4), Pad(d.month, 2), Pad(d.day, 2), Pad(d.hour, 2), Pad(d.minute, 2), Pad(d.second, 2));
    NonEmptyKeepsAll(Fields(Format(d), DateDelims));
  }

  /** Parsing the text form of a value restores all six fields. */
  lemma ParseFormat(d: DateTime)
    requires Printable(d)
    ensures SetDateTaken(Format(d)) == d
  {
    FormatFields(d);
    assert Pow10(2) == 100 && Pow10(4) == 10000;
    AtoLPad(d.year, 4);
    AtoLPad(d.month, 2);
    AtoLPad(d.day, 2);
    AtoLPad(d.hour, 2);
    AtoLPad(d.minute, 2);
    AtoLPad(d.second, 2);
  }

  /** The six numbers written in well-shaped text. */
  function StampValue(s: string): (d: DateTime)
    requires IsStampShaped(s)
    ensures Printable(d)
  {
    DateTime(StampNumber(s, 0, 4), StampNumber(s, 5, 2), StampNumber(s, 8, 2),
             StampNumber(s, 11, 2), StampNumber(s, 14, 2), StampNumber(s, 17, 2))
  }

  /** The number written in the field of `n` digits at `i` of a stamp. */
  function StampNumber(s: string, i: nat, n: nat): (v: nat)
    requires IsStampShaped(s)
    requires (i == 0 && n == 4) || (n == 2 && (i == 5 || i == 8 || i == 11 || i == 14 || i == 17))
    ensures v <= (if n == 4 then 9999 else 99)
  {
    StampFieldBound(s, i, n);
    DigitsValue(s[i..i + n])
  }

  /** A number field of well-shaped text: its digits, and the padded form of its value. */
  lemma StampField(s: string, i: nat, n: nat)
    requires IsStampShaped(s)
    requires (i == 0 && n == 4) || (n == 2 && (i == 5 || i == 8 || i == 11 || i == 14 || i == 17))
    ensures DigitsValue(s[i..i + n]) < Pow10(n) && Pad(DigitsValue(s[i..i + n]), n) == s[i..i + n]
  {
    assert forall k :: i <= k < i + n ==> !IsSeparatorPosition(k);
    PadOfDigits(s[i..i + n]);
  }

  /** Printing the number read from a field of a stamp gives the field back. */
  lemma StampFieldPadded(s: string, i: nat, n: nat)
    requires IsStampShaped(s)
    requires (i == 0 && n == 4) || (n == 2 && (i == 5 || i == 8 || i == 11 || i == 14 || i == 17))
    ensures Pad(StampNumber(s, i, n), n) == s[i..i + n]
  {
    StampField(s, i, n);
  }

  /** A field of a stamp is at most 9999 (the year) or 99 (the others). */
  lemma StampFieldBound(s: string, i: nat, n: nat)
    requires IsStampShaped(s)
    requires (i == 0 && n == 4) || (n == 2 && (i == 5 || i == 8 || i == 11 || i == 14 || i == 17))
    ensures DigitsValue(s[i..i + n]) <= (if n == 4 then 9999 else 99)
  {
    StampField(s, i, n);
    assert Pow10(2) == 100 && Pow10(4) == 10000;
  }

  /** Well-shaped text cut at its separators, nested the way FormatSplits writes the
      text form. */
  lemma StampPieces(s: string)
    requires IsStampShaped(s)
    ensures s == s[0..4] + [':'] + (s[5..7] + [':'] + (s[8..10] + [' ']
                + (s[11..13] + [':'] + (s[14..16] + [':'] + s[17..19]))))
  {
    assert s[14..19] == s[14..16] + [':'] + s[17..19];
    assert s[11..19] == s[11..13] + [':'] + s[14..19];
    assert s[8..19] == s[8..10] + [' '] + s[11..19];
    assert s[5..19] == s[5..7] + [':'] + s[8..19];
    assert s[0..19] == s[0..4] + [':'] + s[5..19];
    assert s == s[0..19];
  }

  /** Well-shaped text is the text form of the numbers written in it. */
  lemma StampIsFormat(s: string)
    requires IsStampShaped(s)
    ensures Format(StampValue(s)) == s
  {
    StampFieldsPadded(s);
    StampPieces(s);
    FormatSplits(StampValue(s));
  }

  /** Each number of well-shaped text, padded again, is the text it was read from. */
  lemma StampFieldsPadded(s: string)
    requires IsStampShaped(s)
    ensures var d := StampValue(s);
      && Pad(d.year, 4) == s[0..4] && Pad(d.month, 2) == s[5..7] && Pad(d.day, 2) == s[8..10]
      && Pad(d.hour, 2) == s[11..13] && Pad(d.minute, 2) == s[14..16] && Pad(d.second, 2) == s[17..19]
  {
    var d := StampValue(s);
    assert Pad(d.year, 4) == s[0..4] by { StampFieldPadded(s, 0, 4); }
    assert Pad(d.month, 2) == s[5..7] by { StampFieldPadded(s, 5, 2); }
    assert Pad(d.day, 2) == s[8..10] by { StampFieldPadded(s, 8, 2); }
    assert Pad(d.hour, 2) == s[11..13] by { StampFieldPadded(s, 11, 2); }
    assert Pad(d.minute, 2) == s[14..16] by { StampFieldPadded(s, 14, 2); }
    assert Pad(d.second, 2) == s[17..19] by { StampFieldPadded(s, 17, 2); }
  }

  /** Formatting what was parsed from well-shaped text gives the text back. */
  lemma FormatParse(s: string)
    requires IsStampShaped(s)
    ensures Printable(SetDateTaken(s))
    ensures Format(SetDateTaken(s)) == s
  {
    StampIsFormat(s);
    ParseFormat(StampValue(s));
  }

  // ---------------------------------------------------------------------------
  // GetDate and SetDateAndTime
  // ---------------------------------------------------------------------------

  /** CDate::GetDate: the text form when the fields are valid, otherwise the text cached by
      the last call that succeeded.  The returned text is also the new cache. */
  function GetDate(d: DateTime, cached: string): (text: string)
    ensures Valid(d) ==> IsStampShaped(text) && SetDateTaken(text) == d
    ensures !Valid(d) ==> text == cached
  {
    if Valid(d) then
      ParseFormat(d);
      Format(d)
    else cached
  }

  /** CDate::SetDateAndTime: copies all six fields of `value` when it is valid and leaves
      the fields untouched otherwise, so it never turns a valid date into an invalid one. */
  function SetDateAndTime(d: DateTime, value: DateTime): (r: DateTime)
    ensures Valid(value) ==> r == value
    ensures !Valid(value) ==> r == d
    ensures Valid(r) <==> Valid(value) || Valid(d)
  {
    if Valid(value) then value else d
  }

  // ---------------------------------------------------------------------------
  // GetMonthOfTheYear
  // ---------------------------------------------------------------------------

  /** The keys of the month lookup table, January first. */
  const MonthKeys: seq<string> := ["jan", "feb", "mar", "apr", "may", "jun",
                                   "jul", "aug", "sep", "oct", "nov", "dec"]

  /** CString::Left(n): the first n characters, or the whole string when it is shorter. */
  function Left(s: string, n: nat): (r: string)
    ensures r <= s && |r| == if n < |s| then n else |s|
  {
    if n >= |s| then s else s[..n]
  }

  /** The position of `key` in `keys` at or after i, plus one, or 0 when it is absent. */
  function Ordinal(keys: seq<string>, key: string, i: nat): (r: int)
    requires i <= |keys|
    ensures r == 0 || (i < r <= |keys| && keys[r - 1] == key)
    ensures r == 0 <==> forall k :: i <= k < |keys| ==> keys[k] != key
    ensures r != 0 ==> forall k :: i <= k < r - 1 ==> keys[k] != key
    decreases |keys| - i
  {
    if i == |keys| then 0
    else if keys[i] == key then i + 1
    else Ordinal(keys, key, i + 1)
  }

  /** CDate::GetMonthOfTheYear: looks up the lower-cased first three characters of the
      name; the result is the month (1..12), or 0 when the name is not recognised. */
  function GetMonthOfTheYear(month: string): (r: int)
    ensures 0 <= r <= 12
    ensures r == 0 <==> Lower(Left(month, 3)) !in MonthKeys
    ensures r != 0 ==> MonthKeys[r - 1] == Lower(Left(month, 3))
  {
    Ordinal(MonthKeys, Lower(Left(month, 3)), 0)
  }

  /** No key occurs twice in `keys`. */
  predicate Distinct(keys: seq<string>) {
    forall i, j :: 0 <= i < j < |keys| ==> keys[i] != keys[j]
  }

  /** In a table without repeats, the key at position n is found at position n. */
  lemma {:induction false} OrdinalOfDistinct(keys: seq<string>, i: nat, n: nat)
    requires Distinct(keys) && i <= n < |keys|
    ensures Ordinal(keys, keys[n], i) == n + 1
    decreases n - i
  {
    if i < n {
      assert keys[i] != keys[n];
      OrdinalOfDistinct(keys, i + 1, n);
    }
  }

  /** The twelve keys are different. */
  lemma MonthKeysDistinct()
    ensures Distinct(MonthKeys)
  {
  }

  /** Every month's three-letter key looks up to its own number. */
  lemma MonthKeysLookUp(k: int)
    requires 1 <= k <= 12
    ensures GetMonthOfTheYear(MonthKeys[k - 1]) == k
  {
    var key := MonthKeys[k - 1];
    assert |key| == 3;
    assert Lower(key) == key;
    MonthKeysDistinct();
    OrdinalOfDistinct(MonthKeys, 0, k - 1);
  }

  /** The lookup ignores case and everything after the third character. */
  lemma MonthLookupIgnoresCase(s: string, t: string)
    requires Lower(Left(s, 3)) == Lower(Left(t, 3))
    ensures GetMonthOfTheYear(s) == GetMonthOfTheYear(t)
  {
  }

  /** A full month name is read by its first three letters, whatever their case. */
  lemma SeptemberExample()
    ensures GetMonthOfTheYear("September") == 9
  {
    var key := MonthKeys[8];
    assert key == "sep";
    assert Left("September", 3) == "Sep";
    assert Lower("Sep") == key by {
      assert LowerChar('S') == 's';
    }
    LowerKeeps(key);
    MonthLookupIgnoresCase("September", key);
    MonthKeysLookUp(9);
  }

  /** A name shorter than three letters matches no key. */
  lemma ShortNameExample()
    ensures GetMonthOfTheYear("ja") == 0
  {
    LowerKeeps("ja");
    assert forall i :: 0 <= i < |MonthKeys| ==> |MonthKeys[i]| == 3;
    assert "ja" !in MonthKeys;
  }
}

=== FILE: extension.dfy ===
/** CExtension: the table from file extensions to MIME types, the state SetFileExtension
    keeps (the current extension, its MIME type and the selected GDI+ encoder), the
    allow-list RecursePath filters files with, and the name of the output folder. */
module Extension {
  import opened CStrings
  import opened Wrappers

  /** The extension-to-MIME-type pairs CExtension's constructor loads. */
  const ExtensionTable: seq<(string, string)> := [
    (".bmp", "image/bmp"),
    (".dib", "image/bmp"),
    (".rle", "image/bmp"),
    (".gif", "image/gif"),
    (".jpeg", "image/jpeg"),
    (".jpg", "image/jpeg"),
    (".jpe", "image/jpeg"),
    (".jfif", "image/jpeg"),
    (".png", "image/png"),
    (".tiff", "image/tiff"),
    (".tif", "image/tiff")
  ]

  /** The five MIME types the table maps to. */
  const MimeTypes: set<string> := {"image/bmp", "image/gif", "image/jpeg", "image/png", "image/tiff"}

  /** The MIME type listed for `ext` in table[i..], if any. */
  function LookupFrom(table: seq<(string, string)>, ext: string, i: nat): (r: Option<string>)
    requires i <= |table|
    ensures r.None? <==> forall k :: i <= k < |table| ==> table[k].0 != ext
    ensures r.Some? ==> exists k :: i <= k < |table| && table[k] == (ext, r.value)
    decreases |table| - i
  {
    if i == |table| then None
    else if table[i].0 == ext then Some(table[i].1)
    else LookupFrom(table, ext, i + 1)
  }

  /** The collection lookup `m_mapExtensions.find`: the MIME type of a known extension. */
  function MimeTypeOf(ext: string): (r: Option<string>)
    ensures r.None? <==> forall k :: 0 <= k < |ExtensionTable| ==> ExtensionTable[k].0 != ext
    ensures r.Some? ==> (ext, r.value) in ExtensionTable
  {
    LookupFrom(ExtensionTable, ext, 0)
  }

  /** No extension is listed twice, so the lookup is a function of the table. */
  lemma TableKeysDistinct()
    ensures forall i, j :: 0 <= i < j < |ExtensionTable| ==> ExtensionTable[i].0 != ExtensionTable[j].0
  {
  }

  /** Every listed extension is found, with the MIME type it is listed with, and every
      MIME type found is one of the five. */
  lemma MimeTypeOfTable(i: int)
    requires 0 <= i < |ExtensionTable|
    ensures MimeTypeOf(ExtensionTable[i].0) == Some(ExtensionTable[i].1)
    ensures ExtensionTable[i].1 in MimeTypes
  {
    TableKeysDistinct();
    var r := MimeTypeOf(ExtensionTable[i].0);
    var k :| 0 <= k < |ExtensionTable| && ExtensionTable[k] == (ExtensionTable[i].0, r.value);
    assert k == i;
  }

  /** What SetFileExtension leaves behind.  The encoder is abstracted by the MIME type
      whose GDI+ encoder (class ID) is selected; it is global and survives from file to
      file. */
  datatype ExtensionState = ExtensionState(fileExtension: string, mimeType: string, encoder: Option<string>)

  /** The state before any file was seen: no extension, no MIME type, no encoder chosen. */
  const InitialExtension := ExtensionState("", "", None)

  /** CExtension::SetFileExtension: records the extension; a known extension selects its
      MIME type and that type's encoder; an unknown one clears the MIME type but leaves
      the previously selected encoder in place. */
  function SetFileExtension(st: ExtensionState, value: string): (r: ExtensionState)
    ensures r.fileExtension == value
    ensures MimeTypeOf(value).Some? ==> r.mimeType == MimeTypeOf(value).value && r.encoder == Some(r.mimeType)
    ensures MimeTypeOf(value).None? ==> r.mimeType == "" && r.encoder == st.encoder
    ensures r.mimeType != "" <==> exists k :: 0 <= k < |ExtensionTable| && ExtensionTable[k].0 == value
  {
    match MimeTypeOf(value)
    case Some(m) => ExtensionState(value, m, Some(m))
    case None => ExtensionState(value, "", st.encoder)
  }

  /** Setting the same extension again changes nothing. */
  lemma SetFileExtensionIdempotent(st: ExtensionState, value: string)
    ensures SetFileExtension(SetFileExtension(st, value), value) == SetFileExtension(st, value)
  {
  }

  /** A known extension makes the result independent of everything set before it. */
  lemma KnownExtensionForgetsPast(st: ExtensionState, st': ExtensionState, value: string)
    requires MimeTypeOf(value).Some?
    ensures SetFileExtension(st, value) == SetFileExtension(st', value)
  {
  }

  /** The stale encoder: after ".jpg", an extension missing from the table keeps the
      JPEG encoder while its MIME type reads empty. */
  lemma StaleEncoderExample(st: ExtensionState)
    ensures var r := SetFileExtension(SetFileExtension(st, ".jpg"), ".jp");
      r.mimeType == "" && r.encoder == Some("image/jpeg")
  {
    MimeTypeOfTable(5);
    assert ExtensionTable[2].0 != ".jp";
  }

  // ---------------------------------------------------------------------------
  // The allow-list of RecursePath
  // ---------------------------------------------------------------------------

  /** The extensions RecursePath accepts, joined by ';'. */
  const ValidExtensions := ".jpg;.jpeg;.png;.gif;.bmp;.tif;.tiff"

  /** RecursePath's filter: the lower-cased extension occurs somewhere in the allow-list
      text.  This is a substring test, so an empty extension and fragments such as ".jp"
      pass as well. */
  predicate IsCandidate(ext: string) {
    Contains(ValidExtensions, ext)
  }

  /** The seven listed extensions, in the order of the allow-list. */
  const Allowed: seq<string> := [".jpg", ".jpeg", ".png", ".gif", ".bmp", ".tif", ".tiff"]

  /** The allow-list text is the seven extensions joined by ';'. */
  lemma AllowedJoin()
    ensures ValidExtensions == Allowed[0] + ";" + Allowed[1] + ";" + Allowed[2] + ";" + Allowed[3]
                              + ";" + Allowed[4] + ";" + Allowed[5] + ";" + Allowed[6]
  {
  }

  /** Every listed extension passes the filter and has a MIME type in the table. */
  lemma AllowedAreCandidatesWithMimeTypes(i: int)
    requires 0 <= i < |Allowed|
    ensures IsCandidate(Allowed[i])
    ensures MimeTypeOf(Allowed[i]).Some?
  {
    var starts := [0, 5, 11, 16, 21, 26, 31];
    var e := Allowed[i];
    OccursAtByChars(ValidExtensions, e, starts[i]);
    var rows := [5, 4, 8, 3, 0, 10, 9];
    assert ExtensionTable[rows[i]].0 == e;
    MimeTypeOfTable(rows[i]);
  }

  /** The substring test lets through files that are not on the list: ones without an
      extension, ".jp", and ".jpe" (a prefix of ".jpeg"); none of the first two has a
      MIME type in the table. */
  lemma CandidatesOffTheList()
    ensures IsCandidate("") && IsCandidate(".jp") && IsCandidate(".jpe")
    ensures MimeTypeOf("").None? && MimeTypeOf(".jp").None?
  {
    OccursAtByChars(ValidExtensions, "", 0);
    OccursAtByChars(ValidExtensions, ".jp", 0);
    OccursAtByChars(ValidExtensions, ".jpe", 5);
  }

  /** Letters that occur in no listed extension. */
  lemma AllowListLacks()
    ensures 'x' !in ValidExtensions
    ensures 'd' !in ValidExtensions
    ensures 'r' !in ValidExtensions
  {
  }

  /** Extensions that the filter stops, among them two that the table knows. */
  lemma NonCandidates()
    ensures !IsCandidate(".txt") && !IsCandidate(".dib") && !IsCandidate(".rle")
  {
    AllowListLacks();
    assert ".txt"[2] == 'x';
    ForeignCharNotFound(ValidExtensions, ".txt", 'x');
    assert ".dib"[1] == 'd';
    ForeignCharNotFound(ValidExtensions, ".dib", 'd');
    assert ".rle"[1] == 'r';
    ForeignCharNotFound(ValidExtensions, ".rle", 'r');
  }

  // ---------------------------------------------------------------------------
  // The output folder
  // ---------------------------------------------------------------------------

  /** GetCorrectedFolder: the sub-folder receiving the corrected copies. */
  const CorrectedFolder := "Corrected"

  /** GetCorrectedFolderLength: the length of that name, used with CString::Right to
      recognise output folders. */
  function CorrectedFolderLength(): (n: nat)
    ensures n == |CorrectedFolder| && Right(CorrectedFolder, n) == CorrectedFolder
  {
    |CorrectedFolder|
  }

  lemma CorrectedFolderLengthIsNine()
    ensures CorrectedFolderLength() == 9
  {
  }
}

=== FILE: helper.dfy ===
/** The path and command-line helpers of CHelper.h: _tsplitpath and the functions built
    on it, and the repair of a command line whose path argument ended in `\"`. */
module Helper {
  import opened CStrings

  // ---------------------------------------------------------------------------
  // _tsplitpath
  // ---------------------------------------------------------------------------

  /** Both '\' and '/' separate path components. */
  predicate IsSep(c: char) {
    c == '\\' || c == '/'
  }

  predicate NoSeps(s: string) {
    forall k :: 0 <= k < |s| ==> !IsSep(s[k])
  }

  /** The four pieces _tsplitpath cuts a path into. */
  datatype PathParts = PathParts(drive: string, dir: string, fname: string, ext: string)

  /** No character of s is c. */
  predicate Lacks(s: string, c: char) {
    forall k :: 0 <= k < |s| ==> s[k] != c
  }

  /** 2 when p starts with a drive ("X:"), else 0. */
  function DriveLength(p: string): nat {
    if |p| >= 2 && p[1] == ':' then 2 else 0
  }

  /** The index just past the last separator in p[lo..hi], or lo when there is none. */
  function DirEnd(p: string, lo: nat, hi: nat): (i: nat)
    requires lo <= hi <= |p|
    ensures lo <= i <= hi
    ensures i == lo || IsSep(p[i - 1])
    ensures forall k :: i <= k < hi ==> !IsSep(p[k])
    decreases hi
  {
    if hi == lo then lo
    else if IsSep(p[hi - 1]) then hi
    else DirEnd(p, lo, hi - 1)
  }

  /** The index of the last '.' in p[lo..hi], or -1 when there is none. */
  function LastDot(p: string, lo: nat, hi: nat): (i: int)
    requires lo <= hi <= |p|
    ensures i == -1 || (lo <= i < hi && p[i] == '.')
    ensures forall k :: (if i == -1 then lo else i + 1) <= k < hi ==> p[k] != '.'
    decreases hi
  {
    if hi == lo then -1
    else if p[hi - 1] == '.' then hi - 1
    else LastDot(p, lo, hi - 1)
  }

  /** Where _tsplitpath's directory ends: just past the last separator after the drive. */
  function FolderEnd(p: string): (c: nat)
    ensures DriveLength(p) <= c <= |p|
    ensures c == DriveLength(p) || IsSep(p[c - 1])
    ensures forall k :: c <= k < |p| ==> !IsSep(p[k])
  {
    DirEnd(p, DriveLength(p), |p|)
  }

  /** Where _tsplitpath's extension starts: the last '.' after the directory, or |p|. */
  function ExtStart(p: string): (e: nat)
    ensures FolderEnd(p) <= e <= |p|
    ensures e < |p| ==> p[e] == '.'
    ensures forall k :: e < k < |p| ==> p[k] != '.'
    ensures e == |p| ==> forall k :: FolderEnd(p) <= k < |p| ==> p[k] != '.'
  {
    var d := LastDot(p, FolderEnd(p), |p|);
    if d == -1 then |p| else d
  }

  /** _tsplitpath: the drive is the first two characters when the second is ':'; the
      directory runs up to and including the last separator after it; the extension
      starts at the last '.' of what remains; the file name is the rest. */
  function SplitPath(p: string): (r: PathParts)
    ensures r.drive + r.dir + r.fname + r.ext == p
    ensures r.drive + r.dir == p[..FolderEnd(p)] && r.fname + r.ext == p[FolderEnd(p)..]
    ensures r.drive == if |p| >= 2 && p[1] == ':' then p[..2] else []
    ensures r.dir == [] || IsSep(r.dir[|r.dir| - 1])
    ensures NoSeps(r.fname + r.ext)
    ensures r.ext == [] || r.ext[0] == '.'
    ensures Lacks(if r.ext == [] then r.fname else r.ext[1..], '.')
  {
    var d := DriveLength(p);
    var c := FolderEnd(p);
    var e := ExtStart(p);
    SplitPathPieces(p, d, c, e);
    PathParts(p[..d], p[d..c], p[c..e], p[e..])
  }

  lemma SplitPathPieces(p: string, d: nat, c: nat, e: nat)
    requires d == DriveLength(p) && c == FolderEnd(p) && e == ExtStart(p)
    ensures p[..d] + p[d..c] + p[c..e] + p[e..] == p
    ensures p[..d] + p[d..c] == p[..c] && p[c..e] + p[e..] == p[c..]
    ensures p[d..c] == [] || IsSep(p[d..c][|p[d..c]| - 1])
    ensures NoSeps(p[c..e] + p[e..])
    ensures Lacks(if p[e..] == [] then p[c..e] else p[e..][1..], '.')
  {
    SplitPathConcat(p, d, c, e);
    SplitPathName(p, c, e);
    if c > d {
      assert p[d..c][|p[d..c]| - 1] == p[c - 1];
    }
  }

  lemma SplitPathConcat(p: string, d: nat, c: nat, e: nat)
    requires d <= c <= e <= |p|
    ensures p[..d] + p[d..c] + p[c..e] + p[e..] == p
    ensures p[..d] + p[d..c] == p[..c] && p[c..e] + p[e..] == p[c..]
  {
    assert p[..d] + p[d..c] == p[..c];
    assert p[..c] + p[c..e] == p[..e];
    assert p[c..e] + p[e..] == p[c..];
  }

  lemma SplitPathName(p: string, c: nat, e: nat)
    requires c == FolderEnd(p) && e == ExtStart(p)
    ensures NoSeps(p[c..e] + p[e..])
    ensures Lacks(if p[e..] == [] then p[c..e] else p[e..][1..], '.')
  {
    assert p[c..e] + p[e..] == p[c..];
    if e < |p| {
      assert p[e..][1..] == p[e + 1..];
    }
  }

  /** CHelper::GetDrive */
  function GetDrive(p: string): string {
    SplitPath(p).drive
  }

  /** CHelper::GetDirectory */
  function GetDirectory(p: string): string {
    SplitPath(p).dir
  }

  /** CHelper::GetFileName */
  function GetFileName(p: string): string {
    SplitPath(p).fname
  }

  /** CHelper::GetExtension: empty, or a '.' followed by no further '.' or separator. */
  function GetExtension(p: string): (e: string)
    ensures e == [] || (e[0] == '.' && Lacks(e[1..], '.'))
    ensures e == p[ExtStart(p)..]
  {
    SplitPath(p).ext
  }

  /** CHelper::GetFolder: drive plus directory, i.e. p up to its last separator. */
  function GetFolder(p: string): (f: string)
    ensures f == p[..FolderEnd(p)]
  {
    var parts := SplitPath(p);
    parts.drive + parts.dir
  }

  /** CHelper::GetDataName: file name plus extension, the last component of p. */
  function GetDataName(p: string): (n: string)
    ensures n == p[FolderEnd(p)..]
    ensures NoSeps(n)
  {
    var parts := SplitPath(p);
    parts.fname + parts.ext
  }

  /** The extension is found at the last '.' after the folder. */
  lemma ExtensionAt(p: string, i: nat)
    requires FolderEnd(p) <= i < |p| && p[i] == '.'
    requires forall k :: i < k < |p| ==> p[k] != '.'
    ensures GetExtension(p) == p[i..]
  {
    assert ExtStart(p) == i;
  }

  /** Folder and data name put back together give the path. */
  lemma FolderAndDataName(p: string)
    ensures GetFolder(p) + GetDataName(p) == p
  {
    assert p[..FolderEnd(p)] + p[FolderEnd(p)..] == p;
  }

  /** RecursePath's wildcard test `GetFolder(p) != p` holds exactly when p has a last
      component after its folder. */
  lemma WildcardIffDataName(p: string)
    ensures GetFolder(p) != p <==> GetDataName(p) != []
  {
    FolderAndDataName(p);
  }

  /** A path that ends in a separator is its own folder: RecursePath enumerates it fully. */
  lemma TrailingSeparatorIsFolder(p: string)
    requires p != [] && IsSep(p[|p| - 1])
    ensures GetFolder(p) == p
    ensures GetDataName(p) == []
  {
    assert FolderEnd(p) == |p|;
  }

  /** A path whose last character is neither a separator nor the ':' of a bare drive has a
      non-empty last component, which RecursePath treats as a pattern. */
  lemma LastComponentIsPattern(p: string)
    requires p != [] && !IsSep(p[|p| - 1])
    requires !(|p| == 2 && p[1] == ':')
    ensures GetDataName(p) != []
    ensures GetFolder(p) != p
  {
    assert FolderEnd(p) < |p|;
    WildcardIffDataName(p);
  }

  /** A folder (ending in a separator) followed by a name without separators splits back
      into exactly those two pieces.  A one-character folder must not be followed by ':',
      which _tsplitpath would read as a drive. */
  lemma SplitAfterFolder(x: string, y: string)
    requires x != [] && IsSep(x[|x| - 1])
    requires NoSeps(y)
    requires |x| == 1 ==> y == [] || y[0] != ':'
    ensures GetFolder(x + y) == x
    ensures GetDataName(x + y) == y
  {
    var p := x + y;
    assert p[|x| - 1] == x[|x| - 1];
    assert forall k :: |x| <= k < |p| ==> p[k] == y[k - |x|];
    assert DriveLength(p) < |x|;
    assert FolderEnd(p) == |x|;
    assert p[..|x|] == x;
    assert p[|x|..] == y;
  }

  /** The extension of a name placed after a folder is the name's part from its last '.'. */
  lemma ExtensionAfterFolder(x: string, y: string, i: nat)
    requires x != [] && IsSep(x[|x| - 1])
    requires NoSeps(y)
    requires |x| == 1 ==> y == [] || y[0] != ':'
    requires i < |y| && y[i] == '.'
    requires forall k :: i < k < |y| ==> y[k] != '.'
    ensures GetExtension(x + y) == y[i..]
  {
    var p := x + y;
    assert FolderEnd(p) == |x| by {
      SplitAfterFolder(x, y);
    }
    assert p[|x| + i] == '.';
    assert forall k :: |x| + i < k < |p| ==> p[k] != '.' by {
      assert forall k :: |x| <= k < |p| ==> p[k] == y[k - |x|];
    }
    ExtensionAt(p, |x| + i);
    assert p[|x| + i..] == y[i..];
  }

  // ---------------------------------------------------------------------------
  // CHelper::CorrectedCommandLine
  // ---------------------------------------------------------------------------

  /** p is the index of the first '"' in s. */
  predicate FirstQuoteAt(s: string, p: int) {
    0 <= p < |s| && s[p] == '"' && '"' !in s[..p]
  }

  /** CString::Find of a one-character needle finds the first occurrence of that character. */
  lemma FindQuote(s: string)
    ensures Find(s, "\"") == -1 <==> '"' !in s
    ensures Find(s, "\"") != -1 ==> FirstQuoteAt(s, Find(s, "\""))
  {
    var r := Find(s, "\"");
    if r != -1 {
      assert s[r..r + 1] == "\"";
      assert s[r] == '"';
      forall k | 0 <= k < r
        ensures s[k] != '"'
      {
        assert !OccursAt(s, "\"", k);
        assert s[k..k + 1] == [s[k]];
      }
    } else {
      forall k | 0 <= k < |s|
        ensures s[k] != '"'
      {
        assert !OccursAt(s, "\"", k);
        assert s[k..k + 1] == [s[k]];
      }
    }
  }

  /** The argument vector after repairing the `...\"` quoting mistake: with exactly one
      argument after the program name and a '"' inside it, the text up to the quote becomes
      the path (the quote replaced by '\'), and the rest is re-split at spaces and tabs. */
  function CorrectedCommandLine(argv: seq<string>): (r: seq<string>)
    ensures |argv| != 2 ==> r == argv
    ensures |argv| == 2 && '"' !in argv[1] ==> r == argv
    ensures |argv| == 2 && '"' in argv[1] ==>
      exists p :: FirstQuoteAt(argv[1], p)
        && |r| >= 2 && r[0] == argv[0]
        && r[1] == argv[1][..p] + "\\"
        && r[2..] == NonEmpty(Fields(argv[1][p + 1..], " \t"))
    ensures |argv| == 2 && '"' in argv[1] ==>
      forall i :: 2 <= i < |r| ==> r[i] != [] && NoneIn(r[i], " \t")
  {
    if |argv| != 2 then argv
    else
      var pos := Find(argv[1], "\"");
      FindQuote(argv[1]);
      if pos == -1 then argv
      else
        var arg1 := argv[1][pos := '\\'];
        assert arg1[..pos + 1] == argv[1][..pos] + "\\";
        assert arg1[pos + 1..] == argv[1][pos + 1..];
        TokenizeIsNonEmptyFields(arg1, " \t", pos + 1);
        FieldsHaveNoDelims(arg1[pos + 1..], " \t");
        NonEmptyFrom(Fields(arg1[pos + 1..], " \t"));
        var r := [argv[0], arg1[..pos + 1]] + Tokenize(arg1, " \t", pos + 1);
        assert r[2..] == Tokenize(arg1, " \t", pos + 1);
        r
  }

  /** " y m d" splits into its three words: the leading blank only makes an empty field,
      which Tokenize drops. */
  lemma SpacedWords(y: string, m: string, d: string)
    requires y != [] && m != [] && d != []
    requires NoneIn(y, " \t") && NoneIn(m, " \t") && NoneIn(d, " \t")
    ensures var w := NonEmpty(Fields([' '] + (y + [' '] + (m + [' '] + d)), " \t"));
      |w| == 3 && w[0] == y && w[1] == m && w[2] == d
  {
    var r2 := m + [' '] + d;
    var r1 := y + [' '] + r2;
    var f1 := Fields(r1, " \t");
    assert |f1| == 3 && f1[0] == y && f1[1] == m && f1[2] == d by {
      FieldsSingle(d, " \t");
      FieldsConsAt(m, ' ', d, " \t");
      var f2 := Fields(r2, " \t");
      assert |f2| == 2 && f2[0] == m && f2[1] == d;
      FieldsConsAt(y, ' ', r2, " \t");
    }
    assert Fields([' '] + r1, " \t") == [[]] + f1 by {
      FieldsCons([], ' ', r1, " \t");
      assert [] + [' '] + r1 == [' '] + r1;
    }
    NonEmptyCons([], f1);
    assert NonEmpty(f1) == f1 by {
      forall i | 0 <= i < |f1|
        ensures f1[i] != []
      {
        assert i == 0 || i == 1 || i == 2;
      }
      NonEmptyKeepsAll(f1);
    }
  }

  /** With a single argument whose first quote is at p, the repaired vector is the
      program, the text before the quote with a separator in its place, and the words
      after it. */
  lemma RepairAtQuote(prog: string, s: string, p: int)
    requires FirstQuoteAt(s, p)
    ensures var r := CorrectedCommandLine([prog, s]);
      |r| >= 2 && r[0] == prog && r[1] == s[..p] + "\\" && r[2..] == NonEmpty(Fields(s[p + 1..], " \t"))
  {
    var r := CorrectedCommandLine([prog, s]);
    var q :| FirstQuoteAt(s, q) && |r| >= 2 && r[0] == prog && r[1] == s[..q] + "\\"
             && r[2..] == NonEmpty(Fields(s[q + 1..], " \t"));
    assert q <= p by {
      assert forall k :: q < k <= |s| ==> s[..k][q] == '"';
    }
    assert p <= q by {
      assert forall k :: p < k <= |s| ==> s[..k][p] == '"';
    }
  }

  /** The repair undoes the typical mistake `"C:\pics\" 2022 6 1`: the shell hands over
      one argument, `C:\pics" 2022 6 1`, which is split back into the path (its quote
      turned into the separator it replaced) and the three date words. */
  lemma QuotedPathRepair(prog: string, folder: string, y: string, m: string, d: string)
    requires '"' !in folder
    requires y != [] && m != [] && d != []
    requires NoneIn(y, " \t") && NoneIn(m, " \t") && NoneIn(d, " \t")
    ensures var r := CorrectedCommandLine([prog, folder + "\" " + y + " " + m + " " + d]);
      |r| == 5 && r[0] == prog && r[1] == folder + "\\" && r[2] == y && r[3] == m && r[4] == d
  {
    var t := [' '] + (y + [' '] + (m + [' '] + d));
    var s := folder + ['"'] + t;
    assert s == folder + "\" " + y + " " + m + " " + d;
    var p := |folder|;
    assert FirstQuoteAt(s, p) by {
      assert s[p] == '"' && s[..p] == folder;
    }
    assert s[p + 1..] == t;
    RepairAtQuote(prog, s, p);
    SpacedWords(y, m, d);
  }
}

=== FILE: program.dfy ===
/** _tmain: repairs the command line, insists on exactly four parameters, a path whose
    folder exists (or "."), and a valid date, and then walks the tree below the path.
    The file system's answers (whether a folder exists, what a wildcard matches, whether a
    folder can be created, and the entries found) are parameters. */
module Program {
  import opened CStrings
  import opened Wrappers
  import opened Helper
  import opened Date
  import opened Extension
  import opened Walker

  /** How _tmain ends before the walk, or the walk it starts. */
  datatype Launch =
    | Usage
    | BadPath(path: string)
    | BadDate(year: int, month: int, day: int)
    | Start(path: string, fixed: DateTime)

  /** The value _tmain returns for an outcome. */
  function ExitCode(l: Launch): int {
    match l
    case Usage => 3
    case BadPath(_) => 4
    case BadDate(_, _, _) => 5
    case Start(_, _) => 0
  }

  /** The path that stands for the current folder, and what it is replaced with. */
  const CurrentFolder := "."
  const CurrentFolderAll := ".\\*.*"

  /** The date m_Date holds after the command line: the three numbers _tstol reads, with
      the time fields at the zero CDate's constructor leaves in them. */
  function CommandDate(args: seq<string>): DateTime
    requires |args| == 5
  {
    Unset.(year := AtoL(args[2]), month := AtoL(args[3]), day := AtoL(args[4]))
  }

  /** The checks of _tmain, in order: the argument count (exit 3), the path (exit 4;
      "." always passes, any other path needs its folder to exist), and the date (exit 5,
      judged the way COleDateTime judges it).  A run that passes all three walks the path,
      "." widened to everything in the current folder, with the command-line date. */
  function LaunchOf(argv: seq<string>, pathExists: string -> bool): (r: Launch)
    ensures var args := CorrectedCommandLine(argv);
      && (ExitCode(r) == 3 <==> |args| != 5)
      && (ExitCode(r) == 4 <==> |args| == 5 && args[1] != CurrentFolder && !pathExists(GetFolder(args[1])))
      && (ExitCode(r) == 5 <==>
            && |args| == 5 && (args[1] == CurrentFolder || pathExists(GetFolder(args[1])))
            && !Valid(CommandDate(args)))
      && (ExitCode(r) == 0 <==>
            && |args| == 5 && (args[1] == CurrentFolder || pathExists(GetFolder(args[1])))
            && Valid(CommandDate(args)))
    ensures r.BadPath? ==> r.path == CorrectedCommandLine(argv)[1]
    ensures r.BadDate? ==> !Valid(DateTime(r.year, r.month, r.day, 0, 0, 0))
    ensures r.Start? ==>
      && Valid(r.fixed) && r.fixed.hour == 0 && r.fixed.minute == 0 && r.fixed.second == 0
      && var args := CorrectedCommandLine(argv);
      && r.fixed.year == AtoL(args[2]) && r.fixed.month == AtoL(args[3]) && r.fixed.day == AtoL(args[4])
      && r.path == (if args[1] == CurrentFolder then CurrentFolderAll else args[1])
  {
    var args := CorrectedCommandLine(argv);
    if |args| != 5 then Usage
    else
      var path := args[1];
      var isDot := path == CurrentFolder;
      if !isDot && !pathExists(GetFolder(path)) then BadPath(path)
      else
        var d := CommandDate(args);
        if !Valid(d) then BadDate(d.year, d.month, d.day)
        else Start(if isDot then CurrentFolderAll else path, d)
  }

  /** The whole program: the exit code, and the walk's events when it gets that far.
      `entries` is the tree FindFile would report below the path, and `pathExists` stands
      for PathFileExists both on the command-line folder and on each output folder. */
  function Run(argv: seq<string>, pathExists: string -> bool, matches: (string, string) -> bool,
               canCreate: string -> bool, entries: seq<Entry>): (r: (int, seq<Event>))
    ensures r.0 in {0, 3, 4, 5}
    ensures r.0 != 0 ==> r.1 == []
    ensures r.0 == ExitCode(LaunchOf(argv, pathExists))
  {
    var l := LaunchOf(argv, pathExists);
    match l
    case Start(path, fixed) =>
      (0, RecursePath(Env(fixed, pathExists, matches, canCreate), WalkState({}, InitialExtension), path, entries).1)
    case _ => (ExitCode(l), [])
  }

  /** Every event of a run keeps the promises of the walk, with the command-line date as
      the day of every copy: no copy is written with another day or an invalid time, and
      none lands outside a "Corrected" folder. */
  lemma RunOk(argv: seq<string>, pathExists: string -> bool, matches: (string, string) -> bool,
              canCreate: string -> bool, entries: seq<Entry>)
    requires GoodEntries(entries)
    ensures var r := Run(argv, pathExists, matches, canCreate, entries);
      r.1 != [] ==>
        && |CorrectedCommandLine(argv)| == 5
        && AllOk(Env(CommandDate(CorrectedCommandLine(argv)), pathExists, matches, canCreate), r.1)
  {
    var l := LaunchOf(argv, pathExists);
    if l.Start? {
      var env := Env(l.fixed, pathExists, matches, canCreate);
      RecursePathOk(env, WalkState({}, InitialExtension), l.path, entries);
      assert l.fixed == CommandDate(CorrectedCommandLine(argv));
    }
  }

  /** "." is walked as the current folder with the pattern "*.*": everything is found, and
      sub-folders are entered with the same pattern. */
  lemma CurrentFolderWalk(env: Env, st: WalkState, entries: seq<Entry>)
    ensures RecursePath(env, st, CurrentFolderAll, entries)
         == WalkEntries(env, st, CurrentFolder, true, AllFiles, entries)
  {
    var x := CurrentFolder + "\\";
    assert x[|x| - 1] == '\\';
    assert NoSeps(AllFiles);
    SplitAfterFolder(x, AllFiles);
    assert x + AllFiles == CurrentFolderAll;
    TrimRightOne(CurrentFolder, '\\');
  }

  /** The command line of the typical quoting mistake still starts a walk: the repaired
      path and date words are what the checks see. */
  lemma QuotedCommandLine(prog: string, folder: string, y: string, m: string, d: string,
                          pathExists: string -> bool)
    requires '"' !in folder && pathExists(folder + "\\")
    requires y != [] && m != [] && d != []
    requires NoneIn(y, " \t") && NoneIn(m, " \t") && NoneIn(d, " \t")
    requires Valid(DateTime(AtoL(y), AtoL(m), AtoL(d), 0, 0, 0))
    ensures var r := LaunchOf([prog, folder + "\" " + y + " " + m + " " + d], pathExists);
      r.Start? && r.path == folder + "\\" && r.fixed == DateTime(AtoL(y), AtoL(m), AtoL(d), 0, 0, 0)
  {
    QuotedPathRepair(prog, folder, y, m, d);
    var p := folder + "\\";
    assert p[|p| - 1] == '\\';
    TrailingSeparatorIsFolder(p);
    assert p != CurrentFolder by {
      assert |p| >= 1;
      if |p| == 1 {
        assert p[0] == '\\';
      }
    }
  }

  /** The day is checked against the calendar: 29 February passes in 2020 and fails in
      2021. */
  lemma LeapDayExample(pathExists: string -> bool)
    requires pathExists(Pics + "\\")
    ensures LaunchOf(["SetDateTaken", Pics + "\\", "2020", "2", "29"], pathExists).Start?
    ensures LaunchOf(["SetDateTaken", Pics + "\\", "2021", "2", "29"], pathExists) == BadDate(2021, 2, 29)
  {
    var p := Pics + "\\";
    assert p[|p| - 1] == '\\';
    TrailingSeparatorIsFolder(p);
    assert p != CurrentFolder;
    WordValues();
    LeapDayLaunch("SetDateTaken", p, "2020", "2", "29", pathExists);
    LeapDayLaunch("SetDateTaken", p, "2021", "2", "29", pathExists);
  }

  /** A launch with the path checked and the words year, month and day, where the month
      reads as 2 and the day as 29. */
  lemma LeapDayLaunch(prog: string, p: string, year: string, month: string, day: string,
                      pathExists: string -> bool)
    requires p != CurrentFolder && pathExists(GetFolder(p))
    requires AtoL(month) == 2 && AtoL(day) == 29
    requires AtoL(year) == 2020 || AtoL(year) == 2021
    ensures var r := LaunchOf([prog, p, year, month, day], pathExists);
      && (AtoL(year) == 2020 ==> r.Start?)
      && (AtoL(year) == 2021 ==> r == BadDate(2021, 2, 29))
  {
    var argv := [prog, p, year, month, day];
    assert CorrectedCommandLine(argv) == argv;
    var d := CommandDate(argv);
    assert d == DateTime(AtoL(year), 2, 29, 0, 0, 0);
    CalendarExamples();
  }

  /** The command line SetDateTaken C:\pics\ 2023 1 10, on the example's disk, exits 0
      and walks C:\pics\: the run writes exactly the one re-dated copy of the photo. */
  lemma ExampleRun()
    ensures Run(["SetDateTaken", Pics + "\\", "2023", "1", "10"], ExampleEnv().pathExists,
                ExampleEnv().matches, ExampleEnv().canCreate, ExampleTree())
         == (0, [ExampleCopy()])
  {
    var env := ExampleEnv();
    ExampleLaunch(env.pathExists);
    assert Env(env.fixed, env.pathExists, env.matches, env.canCreate) == env;
    ExampleWalk();
  }

  /** With C:\pics\ on the disk, SetDateTaken C:\pics\ 2023 1 10 starts the walk of
      C:\pics\ on 2023-01-10. */
  lemma ExampleLaunch(pathExists: string -> bool)
    requires pathExists(Pics + "\\")
    ensures LaunchOf(["SetDateTaken", Pics + "\\", "2023", "1", "10"], pathExists)
         == Start(Pics + "\\", DateTime(2023, 1, 10, 0, 0, 0))
  {
    var p := Pics + "\\";
    assert p[|p| - 1] == '\\';
    TrailingSeparatorIsFolder(p);
    assert p != CurrentFolder;
    var argv := ["SetDateTaken", p, "2023", "1", "10"];
    ExampleWordValues();
    assert CommandDate(argv) == DateTime(2023, 1, 10, 0, 0, 0);
    assert Valid(DateTime(2023, 1, 10, 0, 0, 0));
    DateLaunch(argv, pathExists);
  }

  /** Four parameters, a path other than "." whose folder exists, and words that read as a
      valid date start the walk of that path on that date. */
  lemma DateLaunch(argv: seq<string>, pathExists: string -> bool)
    requires |argv| == 5
    requires argv[1] != CurrentFolder && pathExists(GetFolder(argv[1]))
    requires Valid(CommandDate(argv))
    ensures LaunchOf(argv, pathExists) == Start(argv[1], CommandDate(argv))
  {
    assert CorrectedCommandLine(argv) == argv;
  }

  /** The numbers _tstol reads from the words of ExampleRun. */
  lemma ExampleWordValues()
    ensures AtoL("2023") == 2023 && AtoL("1") == 1 && AtoL("10") == 10
  {
    assert Pad(2023, 4) == "2023" && Pad(1, 1) == "1" && Pad(10, 2) == "10";
    AtoLPad(2023, 4);
    AtoLPad(1, 1);
    AtoLPad(10, 2);
  }

  /** The numbers _tstol reads from the words of LeapDayExample. */
  lemma WordValues()
    ensures AtoL("2020") == 2020 && AtoL("2021") == 2021 && AtoL("2") == 2 && AtoL("29") == 29
  {
    assert Pad(2020, 4) == "2020" && Pad(2021, 4) == "2021" && Pad(2, 1) == "2" && Pad(29, 2) == "29";
    AtoLPad(2020, 4);
    AtoLPad(2021, 4);
    AtoLPad(2, 1);
    AtoLPad(29, 2);
  }
}

=== FILE: resolve.dfy ===
/** Which date a file is given: GetCurrentDateTaken's choice between the two EXIF date
    tags, and RecursePath's combination of the chosen time of day (or the file's
    modification time) with the year, month and day from the command line. */
module Resolve {
  import opened CStrings
  import opened Wrappers
  import opened Date

  /** The text of the EXIF DateTimeOriginal and DateTimeDigitized properties of a file, as
      GetStringProperty reads them: empty when the property is missing or not ASCII. */
  datatype Tags = Tags(original: string, digitized: string)

  /** Hour, minute and second of a file's modification time (CFileStatus::m_mtime). */
  datatype TimeOfDay = TimeOfDay(hour: int, minute: int, second: int)

  /** What GetCurrentDateTaken leaves behind: the returned text and the fields of the
      global CDate, which hold the parse of the last tag it tried. */
  datatype Taken = Taken(text: string, date: DateTime)

  /** Text that parses to a valid date is never empty. */
  lemma EmptyTextIsInvalid()
    ensures !Valid(SetDateTaken(""))
  {
    assert Fields("", DateDelims) == [""];
    assert NonEmpty([""]) == [];
  }

  /** GetCurrentDateTaken: the original tag when it parses to a valid date, otherwise the
      digitized tag when that does, otherwise the empty text.  The date fields are the
      parse of the original tag when it was chosen and of the digitized tag otherwise. */
  function GetCurrentDateTaken(tags: Tags): (r: Taken)
    ensures Valid(SetDateTaken(tags.original)) ==> r.text == tags.original && r.date == SetDateTaken(tags.original)
    ensures !Valid(SetDateTaken(tags.original)) ==> r.date == SetDateTaken(tags.digitized)
    ensures !Valid(SetDateTaken(tags.original)) && Valid(SetDateTaken(tags.digitized)) ==> r.text == tags.digitized
    ensures r.text == [] <==> !Valid(SetDateTaken(tags.original)) && !Valid(SetDateTaken(tags.digitized))
    ensures r.text != [] ==> Valid(r.date) && SetDateTaken(r.text) == r.date
  {
    EmptyTextIsInvalid();
    var original := SetDateTaken(tags.original);
    if Valid(original) then Taken(tags.original, original)
    else
      var digitized := SetDateTaken(tags.digitized);
      if Valid(digitized) then Taken(tags.digitized, digitized)
      else Taken("", digitized)
  }

  /** The same date with its year, month and day replaced by those of `fixed`. */
  function WithDay(d: DateTime, fixed: DateTime): DateTime {
    d.(year := fixed.year, month := fixed.month, day := fixed.day)
  }

  /** The date RecursePath writes into a file: the time of day of the chosen tag; when no
      tag was chosen, the modification time if the file's status could be read, or else
      whatever time the last (invalid) parse left in the fields; and always the year, month
      and day given on the command line. */
  function ResolveFileDate(fixed: DateTime, tags: Tags, mtime: Option<TimeOfDay>): (d: DateTime)
    ensures d.year == fixed.year && d.month == fixed.month && d.day == fixed.day
    ensures var t := GetCurrentDateTaken(tags);
      && (t.text != [] ==> (d.hour, d.minute, d.second) == (t.date.hour, t.date.minute, t.date.second))
      && (t.text == [] && mtime.Some? ==> (d.hour, d.minute, d.second) == (mtime.value.hour, mtime.value.minute, mtime.value.second))
      && (t.text == [] && mtime.None? ==> (d.hour, d.minute, d.second) == (t.date.hour, t.date.minute, t.date.second))
  {
    var t := GetCurrentDateTaken(tags);
    var timed :=
      if t.text == [] && mtime.Some? then
        t.date.(hour := mtime.value.hour, minute := mtime.value.minute, second := mtime.value.second)
      else t.date;
    WithDay(timed, fixed)
  }

  /** A time of day COleDateTime accepts. */
  predicate ValidTime(hour: int, minute: int, second: int) {
    0 <= hour <= 23 && 0 <= minute <= 59 && 0 <= second <= 59
  }

  /** With a valid command-line date, the file's date is valid exactly when its time of
      day is; and a file with a valid tag always gets a valid date. */
  lemma ResolvedValidity(fixed: DateTime, tags: Tags, mtime: Option<TimeOfDay>)
    requires Valid(DateTime(fixed.year, fixed.month, fixed.day, 0, 0, 0))
    ensures var d := ResolveFileDate(fixed, tags, mtime);
      Valid(d) <==> ValidTime(d.hour, d.minute, d.second)
    ensures GetCurrentDateTaken(tags).text != [] ==> Valid(ResolveFileDate(fixed, tags, mtime))
  {
  }

  /** A real modification time (hour 0..23, minute and second 0..59) always gives a file
      without a valid tag a valid date. */
  lemma ModificationTimeIsValid(fixed: DateTime, tags: Tags, m: TimeOfDay)
    requires Valid(DateTime(fixed.year, fixed.month, fixed.day, 0, 0, 0))
    requires ValidTime(m.hour, m.minute, m.second)
    ensures Valid(ResolveFileDate(fixed, tags, Some(m)))
  {
  }

  /** The tags only matter through their parses: a tag's text beyond what the parser
      reads does not change the resolved date. */
  lemma ResolveDependsOnParses(fixed: DateTime, a: Tags, b: Tags, mtime: Option<TimeOfDay>)
    requires SetDateTaken(a.original) == SetDateTaken(b.original)
    requires SetDateTaken(a.digitized) == SetDateTaken(b.digitized)
    ensures ResolveFileDate(fixed, a, mtime) == ResolveFileDate(fixed, b, mtime)
  {
    EmptyTextIsInvalid();
  }

  /** The original tag's time wins, re-dated to the command-line day. */
  lemma OriginalTagExample()
    ensures var stamp := Format(DateTime(2021, 1, 1, 8, 30, 15));
      ResolveFileDate(DateTime(2022, 6, 1, 0, 0, 0), Tags(stamp, ""), None)
        == DateTime(2022, 6, 1, 8, 30, 15)
  {
    ParseFormat(DateTime(2021, 1, 1, 8, 30, 15));
  }

  /** Without a usable tag, the modification time supplies the time of day. */
  lemma ModificationTimeExample()
    ensures ResolveFileDate(DateTime(2022, 6, 1, 0, 0, 0), Tags("", ""), Some(TimeOfDay(14, 5, 9)))
         == DateTime(2022, 6, 1, 14, 5, 9)
  {
    EmptyTextIsInvalid();
  }

  /** A digitized tag with an impossible date and time is not used, and without a
      modification time its out-of-range hour and minute make the file's date invalid. */
  lemma LeftoverTimeExample()
    ensures var bad := DateTime(2021, 13, 1, 25, 61, 0);
      var d := ResolveFileDate(DateTime(2022, 6, 1, 0, 0, 0), Tags("", Format(bad)), None);
      d == DateTime(2022, 6, 1, 25, 61, 0) && !Valid(d)
  {
    EmptyTextIsInvalid();
    ParseFormat(DateTime(2021, 13, 1, 25, 61, 0));
  }
}

=== FILE: walker.dfy ===
/** RecursePath and Save: the walk over a directory tree that writes a re-dated copy of
    every accepted image into a "Corrected" sub-folder beside it.  The file system is a
    tree value; what the program would print or write is a list of events. */
module Walker {
  import opened CStrings
  import opened Wrappers
  import opened Helper
  import opened Date
  import opened Extension
  import opened Resolve

  /** A directory entry as CFileFind reports it: a file with the date tags GDI+ would
      read from it and its modification time (None when CFile::GetStatus fails), or a
      folder with its entries. */
  datatype Entry =
    | File(name: string, tags: Tags, mtime: Option<TimeOfDay>)
    | Folder(name: string, children: seq<Entry>)

  /** Names Windows allows for entries: non-empty, without separators or ':'. */
  predicate GoodName(n: string) {
    n != [] && NoSeps(n) && Lacks(n, ':')
  }

  predicate GoodEntry(e: Entry) {
    && GoodName(e.name)
    && (e.Folder? ==> forall c :: c in e.children ==> GoodEntry(c))
  }

  predicate GoodEntries(es: seq<Entry>) {
    forall e :: e in es ==> GoodEntry(e)
  }

  /** What the walk cannot compute itself: the command-line date (its year, month and
      day), which folders PathFileExists finds before the walk starts, CFileFind's
      wildcard matching for patterns other than "*.*", and whether CreatePath succeeds
      for a missing folder. */
  datatype Env = Env(fixed: DateTime, pathExists: string -> bool, matches: (string, string) -> bool,
                     canCreate: string -> bool)

  /** The state that survives from file to file: the output folders the walk has created
      so far (PathFileExists finds them from then on), and the extension state with its
      global encoder. */
  datatype WalkState = WalkState(created: set<string>, ext: ExtensionState)

  /** What the walk does, in order. */
  datatype Event =
    | Descend(path: string)
    | InvalidDate(src: string)
    | Saved(src: string, dst: string, date: string, encoder: Option<string>)
    | SaveFailed(src: string, folder: string)

  /** The pattern CFileFind::FindFile is given after the folder. */
  const AllFiles := "*.*"

  /** Whether FindFile's pattern returns an entry of that name. */
  predicate Found(env: Env, pattern: string, name: string) {
    pattern == AllFiles || env.matches(pattern, name)
  }

  /** CFileFind::IsDots */
  predicate IsDots(name: string) {
    name == "." || name == ".."
  }

  /** The folder Save writes into: "Corrected" below the folder of the source. */
  function OutputFolder(src: string): string {
    GetFolder(src) + CorrectedFolder
  }

  /** Whether PathFileExists finds a folder during the walk: it existed before, or the
      walk created it. */
  predicate FolderExists(env: Env, created: set<string>, folder: string) {
    folder in created || env.pathExists(folder)
  }

  /** Save: when the output folder does not exist, CreatePath must create it (a failure
      ends the save); then the image is written under its own name there with the
      globally selected encoder.  GDI+'s own result is not modelled. */
  function Save(env: Env, created: set<string>, src: string, date: string, encoder: Option<string>)
    : (r: (set<string>, Event))
    ensures r.1.Saved? || r.1.SaveFailed?
    ensures r.1.src == src
    ensures var folder := OutputFolder(src);
      && (r.1.SaveFailed? <==> !FolderExists(env, created, folder) && !env.canCreate(folder))
      && (r.1.SaveFailed? ==> r.0 == created && r.1 == SaveFailed(src, folder))
      && (r.1.Saved? ==> r.1 == Saved(src, folder + "\\" + GetDataName(src), date, encoder))
      && (r.1.Saved? ==> FolderExists(env, r.0, folder))
      && created <= r.0 <= created + {folder}
      && (folder in r.0 - created <==> !FolderExists(env, created, folder) && env.canCreate(folder))
  {
    var folder := OutputFolder(src);
    if FolderExists(env, created, folder) then (created, Saved(src, folder + "\\" + GetDataName(src), date, encoder))
    else if env.canCreate(folder) then (created + {folder}, Saved(src, folder + "\\" + GetDataName(src), date, encoder))
    else (created, SaveFailed(src, folder))
  }

  /** The output of a source in a folder goes to the "Corrected" sub-folder of that
      folder and keeps its name and extension. */
  lemma SaveTarget(pathname: string, name: string)
    requires GoodName(name)
    ensures var src := pathname + "\\" + name;
      var dst := OutputFolder(src) + "\\" + GetDataName(src);
      && GetFolder(src) == pathname + "\\"
      && GetFolder(dst) == pathname + "\\" + CorrectedFolder + "\\"
      && GetDataName(dst) == name && GetDataName(src) == name
  {
    var x := pathname + "\\";
    SplitAfterFolder(x, name);
    var y := x + CorrectedFolder + "\\";
    assert y[|y| - 1] == '\\';
    SplitAfterFolder(y, name);
    assert x + name == pathname + "\\" + name;
    assert OutputFolder(x + name) + "\\" + name == y + name;
  }

  /** The part of RecursePath that handles a file: files whose lower-cased extension
      fails the allow-list are ignored; the others select their extension, get their
      date resolved and, when it is valid, are saved with it. */
  function ProcessFile(env: Env, st: WalkState, path: string, tags: Tags, mtime: Option<TimeOfDay>)
    : (r: (WalkState, seq<Event>))
    ensures var ext := Lower(GetExtension(path));
      && (!IsCandidate(ext) <==> r.1 == [])
      && (!IsCandidate(ext) ==> r.0 == st)
      && (IsCandidate(ext) ==> |r.1| == 1 && r.0.ext == SetFileExtension(st.ext, ext))
    ensures r.1 != [] ==> !r.1[0].Descend? && r.1[0].src == path
    ensures r.1 != [] && r.1[0].Saved? ==> r.1[0].dst == OutputFolder(path) + "\\" + GetDataName(path)
    ensures r.1 != [] && r.1[0].SaveFailed? ==> r.1[0].folder == OutputFolder(path)
    ensures var d := ResolveFileDate(env.fixed, tags, mtime);
      && (r.1 != [] ==> (r.1[0].InvalidDate? <==> !Valid(d)))
      && (r.1 != [] && r.1[0].Saved? ==>
            && Valid(d)
            && IsStampShaped(r.1[0].date) && SetDateTaken(r.1[0].date) == d
            && r.1[0].encoder == r.0.ext.encoder)
  {
    var ext := Lower(GetExtension(path));
    if !IsCandidate(ext) then (st, [])
    else
      var x := SetFileExtension(st.ext, ext);
      var d := ResolveFileDate(env.fixed, tags, mtime);
      if !Valid(d) then (st.(ext := x), [InvalidDate(path)])
      else SaveWithDate(env, st.created, path, d, x)
  }

  /** The end of ProcessFile for a valid date: the date is printed as a stamp and the file
      saved with the selected encoder; the selection is kept whatever the save does. */
  function SaveWithDate(env: Env, created: set<string>, path: string, d: DateTime, x: ExtensionState)
    : (r: (WalkState, seq<Event>))
    requires Valid(d)
    ensures |r.1| == 1 && (r.1[0].Saved? || r.1[0].SaveFailed?) && r.1[0].src == path && r.0.ext == x
    ensures r.1[0].Saved? ==> r.1[0].dst == OutputFolder(path) + "\\" + GetDataName(path)
    ensures r.1[0].SaveFailed? ==> r.1[0].folder == OutputFolder(path)
    ensures r.1[0].Saved? ==>
      && IsStampShaped(r.1[0].date) && SetDateTaken(r.1[0].date) == d
      && r.1[0].encoder == x.encoder
  {
    var text := GetDate(d, []);
    var saved := Save(env, created, path, text, x.encoder);
    assert saved.1.Saved? ==> saved.1.date == text && saved.1.encoder == x.encoder;
    (WalkState(saved.0, x), [saved.1])
  }

  /** The path RecursePath recurses into for a sub-folder `str`: the same pattern below
      it when wildcards are in use, else the folder itself. */
  function SubPath(str: string, wild: bool, pattern: string): string {
    if wild then str + "\\" + pattern else str + "\\"
  }

  /** RecursePath: splits the path into a folder and a pattern (a path ending in a
      separator lists everything, "*.*"), then walks the entries of that folder. */
  function RecursePath(env: Env, st: WalkState, path: string, entries: seq<Entry>): (r: (WalkState, seq<Event>))
    decreases entries, 1
  {
    var folder := GetFolder(path);
    var wild := folder != path;
    var pathname := TrimRight(folder, '\\');
    var pattern := if wild then GetDataName(path) else AllFiles;
    WalkEntries(env, st, pathname, wild, pattern, entries)
  }

  /** The loop of RecursePath over the entries FindFile returns: dots and entries the
      pattern does not match are passed over; a folder whose path ends in "Corrected" is
      skipped, any other is walked with SubPath; a file goes to ProcessFile. */
  function WalkEntries(env: Env, st: WalkState, pathname: string, wild: bool, pattern: string,
                       entries: seq<Entry>): (r: (WalkState, seq<Event>))
    decreases entries, 0
  {
    if entries == [] then (st, [])
    else
      var first := VisitEntry(env, st, pathname, wild, pattern, entries[0], entries);
      var rest := WalkEntries(env, first.0, pathname, wild, pattern, entries[1..]);
      (rest.0, first.1 + rest.1)
  }

  /** One entry of the loop; `entries` only carries the termination measure. */
  function VisitEntry(env: Env, st: WalkState, pathname: string, wild: bool, pattern: string,
                      e: Entry, entries: seq<Entry>): (r: (WalkState, seq<Event>))
    requires e in entries
    decreases entries, 0, e
  {
    if IsDots(e.name) || !Found(env, pattern, e.name) then (st, [])
    else match e
      case File(name, tags, mtime) => ProcessFile(env, st, pathname + "\\" + name, tags, mtime)
      case Folder(name, children) =>
        var str := TrimRight(pathname + "\\" + name, '\\');
        if Right(str, CorrectedFolderLength()) == CorrectedFolder then (st, [])
        else
          var sub := SubPath(str, wild, pattern);
          var inner := RecursePath(env, st, sub, children);
          (inner.0, [Descend(sub)] + inner.1)
  }

  // ---------------------------------------------------------------------------
  // Properties of the walk
  // ---------------------------------------------------------------------------

  /** What every event of a walk promises.  A sub-folder is never entered when its name
      ends in "Corrected"; every file touched passed the allow-list; a copy is written
      under the source's own name into the "Corrected" folder beside it, dated with the
      command-line day and a time COleDateTime accepts, with the encoder of its
      extension when the table knows it, and never over the source itself; a failed save
      names the output folder, which did not exist and could not be created. */
  predicate EventOk(env: Env, ev: Event) {
    match ev
    case Descend(p) => !EndsWith(TrimRight(GetFolder(p), '\\'), CorrectedFolder)
    case InvalidDate(src) => IsCandidate(Lower(GetExtension(src)))
    case Saved(src, dst, date, encoder) => SavedOk(env, src, dst, date, encoder)
    case SaveFailed(src, folder) =>
      && IsCandidate(Lower(GetExtension(src)))
      && folder == OutputFolder(src) && !env.pathExists(folder) && !env.canCreate(folder)
  }

  /** The promises of a written copy. */
  predicate SavedOk(env: Env, src: string, dst: string, date: string, encoder: Option<string>) {
    && IsCandidate(Lower(GetExtension(src)))
    && dst != src
    && GetFolder(dst) == OutputFolder(src) + "\\"
    && GetDataName(dst) == GetDataName(src)
    && DatedOk(env, date)
    && (MimeTypeOf(Lower(GetExtension(src))).Some? ==> encoder == MimeTypeOf(Lower(GetExtension(src))))
  }

  /** The date written: the text form of a valid date on the command-line day. */
  predicate DatedOk(env: Env, date: string) {
    && IsStampShaped(date)
    && var d := SetDateTaken(date);
    && Valid(d) && d.year == env.fixed.year && d.month == env.fixed.month && d.day == env.fixed.day
  }

  predicate AllOk(env: Env, evs: seq<Event>) {
    forall i :: 0 <= i < |evs| ==> EventOk(env, evs[i])
  }

  lemma AllOkConcat(env: Env, a: seq<Event>, b: seq<Event>)
    ensures AllOk(env, a + b) <==> AllOk(env, a) && AllOk(env, b)
  {
    var ab := a + b;
    if AllOk(env, ab) {
      forall i | 0 <= i < |b|
        ensures EventOk(env, b[i])
      {
        assert ab[|a| + i] == b[i];
      }
      forall i | 0 <= i < |a|
        ensures EventOk(env, a[i])
      {
        assert ab[i] == a[i];
      }
    }
    if AllOk(env, a) && AllOk(env, b) {
      forall i | 0 <= i < |ab|
        ensures EventOk(env, ab[i])
      {
        if i < |a| {
          assert ab[i] == a[i];
        } else {
          assert ab[i] == b[i - |a|];
        }
      }
    }
  }

  /** A file in a folder produces only events that keep those promises. */
  lemma ProcessFileOk(env: Env, st: WalkState, pathname: string, name: string, tags: Tags, mtime: Option<TimeOfDay>)
    requires GoodName(name)
    ensures AllOk(env, ProcessFile(env, st, pathname + "\\" + name, tags, mtime).1)
  {
    var r := ProcessFile(env, st, pathname + "\\" + name, tags, mtime);
    ProcessFileEventOk(env, st, pathname, name, tags, mtime);
    AllOkSingle(env, r.1);
  }

  /** No event, or a single one that keeps the promises. */
  lemma AllOkSingle(env: Env, evs: seq<Event>)
    requires evs != [] ==> |evs| == 1 && EventOk(env, evs[0])
    ensures AllOk(env, evs)
  {
    forall i | 0 <= i < |evs|
      ensures EventOk(env, evs[i])
    {
      assert evs[i] == evs[0];
    }
  }

  /** The one event of a file keeps the promises: an invalid date is reported only for a
      candidate, and a valid one is handed to Save with the date and encoder the promises
      of a written copy ask for. */
  lemma ProcessFileEventOk(env: Env, st: WalkState, pathname: string, name: string, tags: Tags,
                           mtime: Option<TimeOfDay>)
    requires GoodName(name)
    ensures var r := ProcessFile(env, st, pathname + "\\" + name, tags, mtime);
      r.1 != [] ==> |r.1| == 1 && EventOk(env, r.1[0])
  {
    var src := pathname + "\\" + name;
    var r := ProcessFile(env, st, src, tags, mtime);
    var d := ResolveFileDate(env.fixed, tags, mtime);
    if r.1 != [] && !Valid(d) {
      assert r.1[0] == InvalidDate(src);
    } else if r.1 != [] {
      var x := SetFileExtension(st.ext, Lower(GetExtension(src)));
      var text := GetDate(d, []);
      SaveOk(env, st.created, pathname, name, text, x.encoder);
      assert r.1 == [Save(env, st.created, src, text, x.encoder).1];
    }
  }

  /** Save keeps the promises of its event when given a well-dated copy of a candidate
      file and the encoder of the file's MIME type. */
  lemma SaveOk(env: Env, created: set<string>, pathname: string, name: string, date: string,
               encoder: Option<string>)
    requires GoodName(name)
    requires IsCandidate(Lower(GetExtension(pathname + "\\" + name)))
    requires DatedOk(env, date)
    requires var m := MimeTypeOf(Lower(GetExtension(pathname + "\\" + name)));
      m.Some? ==> encoder == m
    ensures EventOk(env, Save(env, created, pathname + "\\" + name, date, encoder).1)
  {
    var src := pathname + "\\" + name;
    var ev := Save(env, created, src, date, encoder).1;
    if ev.Saved? {
      SaveTarget(pathname, name);
    }
  }

  /** Saving a file of a folder whose output folder exists or can be created writes the
      copy under the same name into "Corrected" inside that folder.  An output folder
      that exists is used as it is; a missing one is created and recorded. */
  lemma SaveInFolder(env: Env, created: set<string>, pathname: string, name: string, date: string,
                     encoder: Option<string>)
    requires GoodName(name)
    requires var folder := pathname + "\\" + CorrectedFolder;
      FolderExists(env, created, folder) || env.canCreate(folder)
    ensures var folder := pathname + "\\" + CorrectedFolder;
      var r := Save(env, created, pathname + "\\" + name, date, encoder);
      && (FolderExists(env, created, folder) ==> r.0 == created)
      && (!FolderExists(env, created, folder) ==> r.0 == created + {folder})
      && r.1 == Saved(pathname + "\\" + name, folder + "\\" + name, date, encoder)
  {
    SaveTarget(pathname, name);
    assert OutputFolder(pathname + "\\" + name) == pathname + "\\" + CorrectedFolder;
  }

  /** The loop's pattern agrees with its mode: a real pattern without separators with
      wildcards, "*.*" without. */
  predicate ModeOk(wild: bool, pattern: string) {
    && (wild ==> pattern != [] && NoSeps(pattern))
    && (!wild ==> pattern == AllFiles)
  }

  /** The path of an entry in a folder, before TrimRight. */
  lemma EntryPath(pathname: string, name: string)
    requires GoodName(name)
    ensures var str := pathname + "\\" + name;
      |str| >= 2 && str[|str| - 1] != '\\' && TrimRight(str, '\\') == str
  {
    var str := pathname + "\\" + name;
    assert str[|str| - 1] == name[|name| - 1];
    TrimRightOne(str, '\\');
  }

  /** RecursePath called on SubPath(str, ...) walks the sub-folder `str` in the same mode
      and with the same pattern as its parent. */
  lemma RecurseSub(env: Env, st: WalkState, str: string, wild: bool, pattern: string, children: seq<Entry>)
    requires |str| >= 1 && str[|str| - 1] != '\\'
    requires ModeOk(wild, pattern)
    ensures RecursePath(env, st, SubPath(str, wild, pattern), children)
         == WalkEntries(env, st, str, wild, pattern, children)
    ensures TrimRight(GetFolder(SubPath(str, wild, pattern)), '\\') == str
  {
    var x := str + "\\";
    assert x[|x| - 1] == '\\';
    TrimRightOne(str, '\\');
    if wild {
      SplitAfterFolder(x, pattern);
      assert SubPath(str, wild, pattern) == x + pattern;
      WildcardIffDataName(x + pattern);
    } else {
      TrailingSeparatorIsFolder(x);
    }
  }

  /** The skip test on a sub-folder's path looks at the folder's own name only. */
  lemma CorrectedTestIsNameTest(pathname: string, name: string)
    requires GoodName(name)
    ensures EndsWith(pathname + "\\" + name, CorrectedFolder) <==> EndsWith(name, CorrectedFolder)
  {
    var str := pathname + "\\" + name;
    var n := |CorrectedFolder|;
    if |name| >= n {
      assert str[|str| - n..] == name[|name| - n..];
    } else if |str| >= n {
      var k := |pathname|;
      assert str[k] == '\\';
      assert str[|str| - n..][k - (|str| - n)] == '\\';
      assert CorrectedFolder[k - (|str| - n)] != '\\';
    }
  }

  lemma {:induction false} WalkEntriesOk(env: Env, st: WalkState, pathname: string, wild: bool, pattern: string,
                                         entries: seq<Entry>)
    requires GoodEntries(entries) && ModeOk(wild, pattern)
    ensures AllOk(env, WalkEntries(env, st, pathname, wild, pattern, entries).1)
    decreases entries, 0
  {
    if entries != [] {
      var first := VisitEntry(env, st, pathname, wild, pattern, entries[0], entries);
      VisitEntryOk(env, st, pathname, wild, pattern, entries[0], entries);
      WalkEntriesOk(env, first.0, pathname, wild, pattern, entries[1..]);
      var rest := WalkEntries(env, first.0, pathname, wild, pattern, entries[1..]);
      assert WalkEntries(env, st, pathname, wild, pattern, entries).1 == first.1 + rest.1;
      AllOkConcat(env, first.1, rest.1);
    }
  }

  lemma {:induction false} VisitEntryOk(env: Env, st: WalkState, pathname: string, wild: bool, pattern: string,
                                        e: Entry, entries: seq<Entry>)
    requires e in entries && GoodEntry(e) && ModeOk(wild, pattern)
    ensures AllOk(env, VisitEntry(env, st, pathname, wild, pattern, e, entries).1)
    decreases entries, 0, e
  {
    if IsDots(e.name) || !Found(env, pattern, e.name) {
      assert VisitEntry(env, st, pathname, wild, pattern, e, entries).1 == [];
    } else if e.File? {
      ProcessFileOk(env, st, pathname, e.name, e.tags, e.mtime);
      assert VisitEntry(env, st, pathname, wild, pattern, e, entries)
          == ProcessFile(env, st, pathname + "\\" + e.name, e.tags, e.mtime);
    } else {
      assert forall c :: c in e.children ==> GoodEntry(c);
      WalkEntriesOk(env, st, pathname + "\\" + e.name, wild, pattern, e.children);
      FolderVisitOk(env, st, pathname, wild, pattern, e.name, e.children, entries);
    }
  }

  /** A sub-folder is skipped or yields its Descend event and the events of its walk. */
  lemma FolderVisitOk(env: Env, st: WalkState, pathname: string, wild: bool, pattern: string,
                      name: string, children: seq<Entry>, entries: seq<Entry>)
    requires Folder(name, children) in entries && GoodName(name) && ModeOk(wild, pattern)
    requires !IsDots(name) && Found(env, pattern, name)
    requires AllOk(env, WalkEntries(env, st, pathname + "\\" + name, wild, pattern, children).1)
    ensures AllOk(env, VisitEntry(env, st, pathname, wild, pattern, Folder(name, children), entries).1)
  {
    var str := pathname + "\\" + name;
    assert TrimRight(str, '\\') == str by {
      EntryPath(pathname, name);
    }
    VisitFolder(env, st, pathname, wild, pattern, name, children, entries);
    var r := VisitEntry(env, st, pathname, wild, pattern, Folder(name, children), entries);
    if Right(str, CorrectedFolderLength()) == CorrectedFolder {
      assert r.1 == [];
    } else {
      var sub := SubPath(str, wild, pattern);
      var inner := RecursePath(env, st, sub, children);
      assert r.1 == [Descend(sub)] + inner.1;
      assert AllOk(env, [Descend(sub)] + inner.1) by {
        assert AllOk(env, inner.1) && EventOk(env, Descend(sub)) by {
          EntryPath(pathname, name);
          RightIsSuffixTest(str, CorrectedFolder);
          RecurseSub(env, st, str, wild, pattern, children);
        }
        AllOkConcat(env, [Descend(sub)], inner.1);
      }
    }
  }

  /** What VisitEntry does with a sub-folder that is neither a dot entry nor filtered out. */
  lemma VisitFolder(env: Env, st: WalkState, pathname: string, wild: bool, pattern: string,
                    name: string, children: seq<Entry>, entries: seq<Entry>)
    requires Folder(name, children) in entries && !IsDots(name) && Found(env, pattern, name)
    ensures var str := TrimRight(pathname + "\\" + name, '\\');
      var r := VisitEntry(env, st, pathname, wild, pattern, Folder(name, children), entries);
      && (Right(str, CorrectedFolderLength()) == CorrectedFolder ==> r.0 == st && r.1 == [])
      && (Right(str, CorrectedFolderLength()) != CorrectedFolder ==>
            var inner := RecursePath(env, st, SubPath(str, wild, pattern), children);
            r.0 == inner.0 && r.1 == [Descend(SubPath(str, wild, pattern))] + inner.1)
  {
  }

  /** Every event of a walk from any starting path keeps the promises of EventOk. */
  lemma RecursePathOk(env: Env, st: WalkState, path: string, entries: seq<Entry>)
    requires GoodEntries(entries)
    ensures AllOk(env, RecursePath(env, st, path, entries).1)
  {
    var wild := GetFolder(path) != path;
    WildcardIffDataName(path);
    var pattern := if wild then GetDataName(path) else AllFiles;
    WalkEntriesOk(env, st, TrimRight(GetFolder(path), '\\'), wild, pattern, entries);
  }

  /** The skip test is a case-sensitive suffix test on the folder's name. */
  lemma SkipExamples()
    ensures EndsWith("Corrected", CorrectedFolder)
    ensures EndsWith("NotCorrected", CorrectedFolder)
    ensures !EndsWith("corrected", CorrectedFolder)
  {
    assert "corrected"[0] != CorrectedFolder[0];
  }

  /** The only folders a walk creates are output folders that did not exist before. */
  predicate GrowsByOutputFolders(env: Env, before: set<string>, after: set<string>) {
    && before <= after
    && forall f :: f in after && f !in before ==> EndsWith(f, CorrectedFolder) && !env.pathExists(f)
  }

  lemma ProcessFileGrows(env: Env, st: WalkState, path: string, tags: Tags, mtime: Option<TimeOfDay>)
    ensures GrowsByOutputFolders(env, st.created, ProcessFile(env, st, path, tags, mtime).0.created)
  {
    var ext := Lower(GetExtension(path));
    var d := ResolveFileDate(env.fixed, tags, mtime);
    var after := ProcessFile(env, st, path, tags, mtime).0.created;
    if IsCandidate(ext) && Valid(d) {
      var x := SetFileExtension(st.ext, ext);
      var text := GetDate(d, []);
      SaveGrows(env, st.created, path, text, x.encoder);
      assert after == Save(env, st.created, path, text, x.encoder).0;
    } else {
      assert after == st.created;
    }
  }

  /** Save adds at most the output folder of its file, and only when it was missing. */
  lemma SaveGrows(env: Env, created: set<string>, src: string, date: string, encoder: Option<string>)
    ensures GrowsByOutputFolders(env, created, Save(env, created, src, date, encoder).0)
  {
    var folder := OutputFolder(src);
    assert EndsWith(folder, CorrectedFolder) by {
      assert folder[|folder| - |CorrectedFolder|..] == CorrectedFolder;
    }
  }

  lemma {:induction false} WalkEntriesGrows(env: Env, st: WalkState, pathname: string, wild: bool, pattern: string,
                                            entries: seq<Entry>)
    ensures GrowsByOutputFolders(env, st.created, WalkEntries(env, st, pathname, wild, pattern, entries).0.created)
    decreases entries, 0
  {
    if entries != [] {
      var first := VisitEntry(env, st, pathname, wild, pattern, entries[0], entries);
      VisitEntryGrows(env, st, pathname, wild, pattern, entries[0], entries);
      WalkEntriesGrows(env, first.0, pathname, wild, pattern, entries[1..]);
    }
  }

  lemma {:induction false} VisitEntryGrows(env: Env, st: WalkState, pathname: string, wild: bool, pattern: string,
                                           e: Entry, entries: seq<Entry>)
    requires e in entries
    ensures GrowsByOutputFolders(env, st.created, VisitEntry(env, st, pathname, wild, pattern, e, entries).0.created)
    decreases entries, 0, e
  {
    if !IsDots(e.name) && Found(env, pattern, e.name) {
      match e
      case File(name, tags, mtime) =>
        ProcessFileGrows(env, st, pathname + "\\" + name, tags, mtime);
      case Folder(name, children) =>
        var str := TrimRight(pathname + "\\" + name, '\\');
        var sub := SubPath(str, wild, pattern);
        RecursePathGrows(env, st, sub, children);
    }
  }

  /** A walk never forgets a folder it created, and creates none but output folders that
      were missing. */
  lemma {:induction false} RecursePathGrows(env: Env, st: WalkState, path: string, entries: seq<Entry>)
    ensures GrowsByOutputFolders(env, st.created, RecursePath(env, st, path, entries).0.created)
    decreases entries, 1
  {
    var wild := GetFolder(path) != path;
    var pattern := if wild then GetDataName(path) else AllFiles;
    WalkEntriesGrows(env, st, TrimRight(GetFolder(path), '\\'), wild, pattern, entries);
  }

  // ---------------------------------------------------------------------------
  // A walk of a small folder
  // ---------------------------------------------------------------------------

  /** The folder of the example, C:\pics. */
  const Pics := "C:\\pics"

  /** The command-line day 2023-01-10, a disk on which C:\pics\ and C:\pics\Corrected
      already exist, no wildcard patterns, and folders that can be created. */
  function ExampleEnv(): Env {
    Env(DateTime(2023, 1, 10, 0, 0, 0),
        (folder: string) => folder == Pics + "\\" || folder == Pics + "\\" + CorrectedFolder,
        (pattern: string, name: string) => false, (folder: string) => true)
  }

  /** A photo whose original tag reads 2019:05:04 09:15:00. */
  function Photo(): Entry {
    File("a.jpg", Tags(Format(DateTime(2019, 5, 4, 9, 15, 0)), ""), None)
  }

  /** C:\pics holds the photo, a text file, and a Corrected folder from an earlier run. */
  function ExampleTree(): seq<Entry> {
    [Photo(), File("notes.txt", Tags("", ""), None), Folder("Corrected", [Photo()])]
  }

  /** The copy the walk writes. */
  function ExampleCopy(): Event {
    Saved(Pics + "\\" + "a.jpg", Pics + "\\" + CorrectedFolder + "\\" + "a.jpg",
          Format(DateTime(2023, 1, 10, 9, 15, 0)), Some("image/jpeg"))
  }

  lemma ExamplePhotoDate()
    ensures ResolveFileDate(ExampleEnv().fixed, Photo().tags, None) == DateTime(2023, 1, 10, 9, 15, 0)
  {
    ParseFormat(DateTime(2019, 5, 4, 9, 15, 0));
  }

  /** The extension of a file in a folder is the part of its name from the last '.'. */
  lemma NameExtension(pathname: string, base: string, ext: string)
    requires GoodName(base + ext) && ext != [] && ext[0] == '.' && Lacks(ext[1..], '.')
    ensures GetExtension(pathname + "\\" + (base + ext)) == ext
  {
    var x := pathname + "\\";
    var name := base + ext;
    assert x[|x| - 1] == '\\';
    assert name[|base|..] == ext;
    forall k | |base| < k < |name|
      ensures name[k] != '.'
    {
      assert name[k] == ext[1..][k - |base| - 1];
    }
    ExtensionAfterFolder(x, name, |base|);
  }

  /** An extension as the allow-list spells it: a '.', then no other '.', and no
      upper-case letter. */
  predicate PlainExtension(ext: string) {
    && ext != [] && ext[0] == '.' && Lacks(ext[1..], '.')
    && forall i :: 0 <= i < |ext| ==> !IsUpper(ext[i])
  }

  /** The lower-cased extension of a name ending in a plain extension is that extension. */
  lemma NameLowerExtension(folder: string, base: string, ext: string)
    requires GoodName(base + ext) && PlainExtension(ext)
    ensures Lower(GetExtension(folder + "\\" + (base + ext))) == ext
  {
    NameExtension(folder, base, ext);
    LowerKeeps(ext);
  }

  /** The names of the example split into their base and a plain extension. */
  lemma ExampleNameParts()
    ensures "a.jpg" == "a" + ".jpg" && GoodName("a" + ".jpg") && PlainExtension(".jpg")
    ensures "notes.txt" == "notes" + ".txt" && GoodName("notes" + ".txt") && PlainExtension(".txt")
  {
    ExampleNamesGood();
  }

  /** In any folder, "a.jpg" has the extension ".jpg" and "notes.txt" the extension ".txt". */
  lemma ExampleExtensions(folder: string)
    ensures Lower(GetExtension(folder + "\\" + "a.jpg")) == ".jpg"
    ensures Lower(GetExtension(folder + "\\" + "notes.txt")) == ".txt"
  {
    ExampleNameParts();
    NameLowerExtension(folder, "a", ".jpg");
    NameLowerExtension(folder, "notes", ".txt");
  }

  lemma JpgIsKnown(st: WalkState)
    ensures IsCandidate(".jpg")
    ensures SetFileExtension(st.ext, ".jpg").encoder == Some("image/jpeg")
  {
    AllowedAreCandidatesWithMimeTypes(0);
    assert ExtensionTable[5] == (".jpg", "image/jpeg");
    MimeTypeOfTable(5);
  }

  /** The photo's copy goes into the existing C:\pics\Corrected, which is not created. */
  lemma ExamplePhotoSave(st: WalkState, date: string, encoder: Option<string>)
    ensures var r := Save(ExampleEnv(), st.created, Pics + "\\" + "a.jpg", date, encoder);
      && r.0 == st.created
      && r.1 == Saved(Pics + "\\" + "a.jpg", Pics + "\\" + CorrectedFolder + "\\" + "a.jpg", date, encoder)
  {
    ExampleNamesGood();
    ExampleEnvHasOutput();
    SaveInFolder(ExampleEnv(), st.created, Pics, "a.jpg", date, encoder);
  }

  /** The names of the example tree are plain file names. */
  lemma ExampleNamesGood()
    ensures GoodName("a.jpg") && GoodName("notes.txt") && GoodName("Corrected")
  {
  }

  /** On the example's disk the output folder of C:\pics exists. */
  lemma ExampleEnvHasOutput()
    ensures ExampleEnv().pathExists(Pics + "\\" + CorrectedFolder)
  {
  }

  lemma ExamplePhoto(st: WalkState)
    ensures var r := ProcessFile(ExampleEnv(), st, Pics + "\\" + "a.jpg", Photo().tags, None);
      && r.0 == WalkState(st.created, SetFileExtension(st.ext, ".jpg"))
      && r.1 == [ExampleCopy()]
  {
    var d := DateTime(2023, 1, 10, 9, 15, 0);
    ExamplePhotoDate();
    ExampleExtensions(Pics);
    JpgIsKnown(st);
    assert Valid(d);
    var x := SetFileExtension(st.ext, ".jpg");
    ExamplePhotoSave(st, GetDate(d, []), x.encoder);
  }

  lemma ExampleText(st: WalkState)
    ensures var r := ProcessFile(ExampleEnv(), st, Pics + "\\" + "notes.txt", Tags("", ""), None);
      r.0 == st && r.1 == []
  {
    ExampleExtensions(Pics);
    NonCandidates();
  }

  /** The root "C:\pics\" is walked without a pattern, as the folder "C:\pics". */
  lemma ExampleRoot(env: Env, st: WalkState, es: seq<Entry>)
    ensures RecursePath(env, st, Pics + "\\", es) == WalkEntries(env, st, Pics, false, AllFiles, es)
  {
    var root := Pics + "\\";
    assert root[|root| - 1] == '\\';
    TrailingSeparatorIsFolder(root);
    TrimRightOne(Pics, '\\');
  }

  /** The Corrected folder of an earlier run is passed over. */
  lemma ExampleSkip(env: Env, st: WalkState, children: seq<Entry>, es: seq<Entry>)
    requires Folder("Corrected", children) in es
    ensures VisitEntry(env, st, Pics, false, AllFiles, Folder("Corrected", children), es) == (st, [])
  {
    var str := Pics + "\\" + "Corrected";
    ExampleNamesGood();
    EntryPath(Pics, "Corrected");
    assert str[|str| - 9..] == CorrectedFolder;
  }

  /** The entries "." and ".." are passed over, whatever the pattern: they add no event
      and change nothing. */
  lemma DotsSkipped(env: Env, st: WalkState, pathname: string, wild: bool, pattern: string,
                    e: Entry, entries: seq<Entry>)
    requires e in entries && (e.name == "." || e.name == "..")
    ensures VisitEntry(env, st, pathname, wild, pattern, e, entries) == (st, [])
  {
  }

  /** With the pattern "*.*", a file that is not a dot entry goes to ProcessFile. */
  lemma VisitFileAll(env: Env, st: WalkState, pathname: string, wild: bool, e: Entry, es: seq<Entry>)
    requires e in es && e.File? && !IsDots(e.name)
    ensures VisitEntry(env, st, pathname, wild, AllFiles, e, es) == ProcessFile(env, st, pathname + "\\" + e.name, e.tags, e.mtime)
  {
  }

  /** One step of the loop over the entries. */
  lemma WalkStep(env: Env, st: WalkState, pathname: string, wild: bool, pattern: string, es: seq<Entry>,
                 mid: WalkState, evs: seq<Event>, last: WalkState, more: seq<Event>)
    requires es != []
    requires var v := VisitEntry(env, st, pathname, wild, pattern, es[0], es);
      v.0 == mid && v.1 == evs
    requires var w := WalkEntries(env, mid, pathname, wild, pattern, es[1..]);
      w.0 == last && w.1 == more
    ensures var r := WalkEntries(env, st, pathname, wild, pattern, es);
      r.0 == last && r.1 == evs + more
  {
  }

  lemma ExampleTextEntry(st: WalkState, es: seq<Entry>)
    requires es != [] && es[0] == File("notes.txt", Tags("", ""), None)
    ensures var v := VisitEntry(ExampleEnv(), st, Pics, false, AllFiles, es[0], es);
      v.0 == st && v.1 == []
  {
    VisitFileAll(ExampleEnv(), st, Pics, false, es[0], es);
    ExampleText(st);
  }

  /** A folder holding only the earlier Corrected folder adds nothing. */
  lemma ExampleSkipOnly(st: WalkState, es: seq<Entry>)
    requires |es| == 1 && es[0] == Folder("Corrected", [Photo()])
    ensures var r := WalkEntries(ExampleEnv(), st, Pics, false, AllFiles, es);
      r.0 == st && r.1 == []
  {
    var env := ExampleEnv();
    ExampleSkip(env, st, [Photo()], es);
    assert es[1..] == [];
    assert WalkEntries(env, st, Pics, false, AllFiles, es[1..]) == (st, []);
    WalkStep(env, st, Pics, false, AllFiles, es, st, [], st, []);
  }

  /** After the photo, the rest of the folder adds nothing. */
  lemma ExampleRest(st: WalkState)
    ensures var r := WalkEntries(ExampleEnv(), st, Pics, false, AllFiles, ExampleTree()[1..]);
      r.0 == st && r.1 == []
  {
    var env := ExampleEnv();
    var es := ExampleTree()[1..];
    assert |es| == 2 && es[0] == File("notes.txt", Tags("", ""), None);
    ExampleTextEntry(st, es);
    assert |es[1..]| == 1 && es[1..][0] == Folder("Corrected", [Photo()]);
    ExampleSkipOnly(st, es[1..]);
    WalkStep(env, st, Pics, false, AllFiles, es, st, [], st, []);
  }

  /** Walking C:\pics\ writes one corrected copy, of the photo, re-dated to 2023-01-10 at
      the photo's own time 09:15:00, with the JPEG encoder; the text file fails the
      allow-list and the earlier Corrected folder is not entered.  That folder already
      exists, so the walk creates none. */
  lemma ExampleWalk()
    ensures var r := RecursePath(ExampleEnv(), WalkState({}, InitialExtension), Pics + "\\", ExampleTree());
      r.1 == [ExampleCopy()] && r.0.created == {}
  {
    var env := ExampleEnv();
    var st0 := WalkState({}, InitialExtension);
    var es := ExampleTree();
    var st1 := WalkState({}, SetFileExtension(InitialExtension, ".jpg"));
    var r := WalkEntries(env, st0, Pics, false, AllFiles, es);
    assert r.0 == st1 && r.1 == [ExampleCopy()] + [] by {
      var v := VisitEntry(env, st0, Pics, false, AllFiles, es[0], es);
      assert v.0 == st1 && v.1 == [ExampleCopy()] by {
        VisitFileAll(env, st0, Pics, false, es[0], es);
        ExamplePhoto(st0);
      }
      ExampleRest(st1);
      WalkStep(env, st0, Pics, false, AllFiles, es, st1, [ExampleCopy()], st1, []);
    }
    assert [ExampleCopy()] + [] == [ExampleCopy()];
    ExampleRoot(env, st0, es);
  }
}

=== FILE: wrappers.dfy ===
/** The optional-value datatype used wherever the program has "maybe a value". */
module Wrappers {

  /** A value that may be absent (a failed CFile::GetStatus, a missing table entry, ...). */
  datatype Option<+T> = None | Some(value: T)
}
